=== FILE: README.md ===
# argopy `argo` accessor — a Dafny model

This project models the core of argopy's xarray accessor `ds.argo`
(`argopy/xarray.py`, class `ArgoAccessor`). Argo float data comes in two
layouts:

- a **collection of points**: one row per measurement along an `index`
  dimension, each row carrying its float id (`PLATFORM_NUMBER`, the WMO
  number) and its `CYCLE_NUMBER`;
- a **collection of profiles**: an `N_PROF × N_LEVELS` grid with one row per
  (float, cycle) profile.

The model covers the following parts of the accessor:

- **Layout detection and guards.** When the accessor opens on a dataset it
  records which layout the dataset has. Each conversion is refused unless
  the accessor recorded the layout that conversion expects. This is in
  `accessor.dfy`.
- **Profile uid codec.** A float id and a cycle number pack into one integer,
  `10000 * wmo + cyc`. This is in `uid.dfy`.
- **`point2profile`.** Points are grouped by uid. `np.unique` sorts the uids
  and the largest group sets the grid size. Each profile row is filled with
  its points' values and padded with the fill value of the variable's dtype
  kind. This is in `cells.dfy`, `grouping.dfy`, `points.dfy` and
  `reshape.dfy`.
- **`profile2point`.** The grid is stacked back into points, and the
  coordinate variables are marked as coordinates. This is in `flatten.dfy`.
  The round trip points → profiles → points is in `roundtrip.dfy`.
- **The QC branch of `cast_types`.** Flag strings are cleaned of blank and
  `nan` markers, then cast to integers. This is in `qc.dfy` and `text.dfy`.
- **`filter_data_mode`.** Each parameter is replaced by the values its row's
  `DATA_MODE` designates. This is in `datamode.dfy`. It comes in two
  versions: one as the source is written, and one with the oxygen test
  corrected.

Datasets are modelled as immutable values:

- a `PointSet` holds variables and points;
- a `ProfileSet` holds variables, `N_LEVELS` and one profile per row;
- a `Table` holds named columns for `filter_data_mode`.

A cell is a string, an integer, a real number, a time, `NaN` or `NaT`.
Errors the source raises become `Failure` values of a `Result`. One error,
`UnsupportedContent`, has no counterpart in the source: it stands for a
dataset whose dimensions the accessor accepts but whose shape the model
does not describe, and for an accessor that records profiles while it
still holds points (see "Left out").

Where the code and its comments or docstrings disagree, the model follows
the code:

- **`filter_data_mode`, adjusted rows.** The docstring says adjusted (`'A'`)
  rows keep the raw parameter. The code takes the adjusted variables for
  them, and so does the model.
- **`point2profile`, padding of header variables.** The header variables
  are `LATITUDE`, `LONGITUDE`, `TIME` and `JULD`, when they are data
  variables. Their whole row is first set to the profile's least value and
  then overwritten with the profile's measurements. So their padding is that
  least value, not the fill value.
- **`point2profile`, coordinates along `index`.** These are gridded to one
  fill value per profile and never written afterwards.
- **`point2profile`, matching points to profiles.** A profile's points are
  the ones whose float id and cycle match the *decoded* uid. When those are
  out of the codec's range a profile can match no point. The source then
  indexes an empty array; this is modelled as the failure `EmptySelection`.
  Without a header variable the reshape succeeds instead, and a point whose
  cycle is 10000 or more is silently left out of the grid: its uid is that
  of another float's cycle, whose row receives only that cycle's points.
- **`profile2point`, stacking order.** The order follows the order of the
  dataset's dimensions, so it is a parameter. Stacking profile by profile
  gives the round trip.
- **`cast_types`, failed integer cast.** When the final cast of a QC
  variable fails, the variable keeps its *cleaned* strings. The cast fails
  on an entry that is not an integer and on one outside numpy's 64-bit
  `int`.
- **`cast_types`, dtype width.** The cleaning tests the array's declared
  dtype `<U w`. An object array is first cast with `astype(str)`, which
  gives the longest entry's length. A unicode array keeps its declared
  width, which may exceed every entry.

## Model

| member | source | states |
|---|---|---|
| Accessor.Open | argopy/xarray.py:40-48 | The accessor opens exactly on datasets with an `N_PROF` or an `index` dimension, and refuses any other with `InvalidDatasetStructure`. `N_PROF` wins, giving the profile layout; otherwise the layout is points. A collection of points opens as points and a collection of profiles as profiles. |
| Accessor.ToProfiles | argopy/xarray.py:333-338 | `point2profile` is refused with `InvalidDatasetStructure` unless the accessor records points. Otherwise it succeeds exactly when the reshape does and returns the reshaped profiles. On success the same accessor then records profiles. |
| Accessor.ToPoints | argopy/xarray.py:432-435 | `profile2point` is refused with `InvalidDatasetStructure` unless the accessor records profiles. On a collection of profiles it returns the stacked points, which are well formed. |
| Accessor.PointsRefuseToPoints | argopy/tests/test_xarray.py:23-28 | Opening on any collection of points and calling `profile2point` raises `InvalidDatasetStructure`. |
| Accessor.SecondConversionRefused | argopy/xarray.py:429 | After one successful `point2profile`, the accessor records profiles, so a second call on it is refused. |
| Accessor.ConvertedOpensAsProfiles | argopy/tests/test_xarray.py:15-19 | The result of a successful `point2profile` has an `N_PROF` dimension. It opens as profiles, with room for every point in its grid. |
| Accessor.AccessorRoundTrip | argopy/tests/test_xarray.py:32-36 | Take points that are sorted by uid, laid out without padding and within the codec's range. Going through the accessor, `point2profile` then `profile2point` gives back the same points, with coordinates marked. |
| Uid.Decode | argopy/xarray.py:354-364 | The decoding direction inverts the encoding for every integer: re-encoding the decoded pair gives the uid back. The cycle part is under 10000 in magnitude and shares the uid's sign. |
| Uid.DecodeEncode | argopy/xarray.py:354-364 | For a float id ≥ 0 and a cycle in [0, 10000), decoding the encoded pair gives the pair back. |
| Uid.EncodeInjective | argopy/xarray.py:354-364 | Within that range, two pairs get the same uid if and only if they are equal. |
| Uid.EncodeOrder | argopy/xarray.py:354-364 | Within that range, uid order is the order by float id, then by cycle. |
| Uid.CycleOverflowCollides | argopy/xarray.py:354-364 | Outside the range, cycle 10000 of float 1 and cycle 0 of float 2 share a uid, which decodes to the latter. |
| Cells.Fill | argopy/xarray.py:341-352 | The fill value of each dtype kind fits that kind. It is missing (`NaN` or `NaT`) exactly for datetime and float-like kinds. It is `' '` for strings and `99999` for integers. |
| Cells.FirstSorted | argopy/xarray.py:412 | `np.unique(values)[0]` is one of the values and the least of them. It is a measurement whenever any value is. |
| Grouping.Unique | argopy/xarray.py:373 | `np.unique` is strictly increasing and holds exactly the column's values. |
| Grouping.IncreasingDeterminedByElements | argopy/xarray.py:373 | Two strictly increasing sequences with the same elements are equal, so `np.unique` is the only sorted, duplicate-free listing. |
| Grouping.CountsPartition | argopy/xarray.py:366-371 | The per-uid counts of the distinct keys add up to the number of points. |
| Grouping.GridHoldsColumn | argopy/xarray.py:366-374 | `N_PROF * N_LEVELS` is at least the number of points, so the source's assertion holds. |
| Reshape.Point2Profile | argopy/xarray.py:333-430 | Fails on an empty dataset. Fails otherwise exactly when a header variable exists and some uid selects no point. On success the grid is well formed, keeps the variables, has one row per distinct uid and `N_LEVELS` equal to the largest group (at least 1), and has room for every point. |
| ReshapeProperties.GridShape | argopy/xarray.py:366-407 | On success, there is one row per distinct uid, taken in strictly increasing order, and the distinct uids are exactly the points' uids. Row `i` holds the float id and cycle decoded from the `i`-th uid. `N_LEVELS` bounds every group's size and equals one of them. |
| ReshapeProperties.PointPlaced | argopy/xarray.py:414-422 | Within the codec's range, every point is in the grid. If it is the `j`-th of its float cycle's points in index order, all its data variables are at level `j` of that float cycle's row. |
| ReshapeProperties.OverflowLosesPoint | argopy/xarray.py:354-422 | Outside the range, a point can be lost. Take float 1's cycle 10000 measuring 7.0 and float 2's cycle 0 measuring 8.0. The reshape gives one row, for float 2 cycle 0, holding 8.0 and then NaN. |
| ReshapeProperties.InRangeSucceeds | argopy/xarray.py:405-422 | When every point is within the codec's range, `point2profile` succeeds if and only if there is a point. |
| ReshapeProperties.ProfileOrder | argopy/xarray.py:405-408 | Profiles are ordered by float id, then by cycle. Every point's float and cycle appear as some profile. |
| ReshapeProperties.RowContents | argopy/xarray.py:380-422 | Row `i`, variable `k`. A coordinate along `index` holds its fill value. A data variable holds the matching points' values in index order, then padding. The padding is the fill value, except for a header variable, whose padding is the least of its measured values. |
| Flatten.Profile2Point | argopy/xarray.py:432-446 | The stacked points are well formed: one per grid cell, numbered `0..n-1`, with the header variables marked as coordinates. |
| Flatten.Placement | argopy/xarray.py:436-440 | Grid cell `(i, j)` becomes point `i * N_LEVELS + j` (profile-major) or `j * N_PROF + i` (level-major). That point carries the profile's float, cycle and level-`j` values. |
| RoundTrip.PointToProfileToPoint | argopy/tests/test_xarray.py:32-36 | For points sorted by uid, numbered, without padding, within range and without coordinates, `profile2point(point2profile(ps))` gives back the points, with the header variables marked as coordinates. |
| QcFlags.Width | argopy/xarray.py:123-124 | The width `<U w` that `astype(str)` gives an object array is the longest string length, at least 1. It bounds every entry. |
| QcFlags.NormaliseIsElementwise | argopy/xarray.py:129-144 | The cleaning of a `<U w` array acts entry by entry, as the reference `CleanFlag` of width `w`. |
| QcFlags.CleanedEntries | argopy/xarray.py:129-144 | After cleaning a width-1 or width-3 array, no entry is `' '` or `'n'`. A width-3 array ends with entries of at most one character. |
| QcFlags.NormaliseIdempotent | argopy/xarray.py:122-146 | Cleaning the cleaned array again, at its new dtype width (`<U1` after `<U3`), changes nothing. |
| QcFlags.MarkerBecomesZero | argopy/xarray.py:129-144 | The missing-value markers `'   '` and `'nan'` (width 3) and `' '` and `'n'` (width 1) become the flag `'0'`. |
| QcFlags.DigitFlagKept | argopy/xarray.py:129-144 | A one-digit flag is left unchanged by cleaning. |
| QcFlags.LeadingBlankIsZero | argopy/xarray.py:129-136 | In a width-3 array, an entry starting with a blank becomes `'0'`. |
| QcFlags.ParseShow | argopy/xarray.py:146 | `int()` reads back any printed integer. |
| QcFlags.SeparatorStripped | argopy/xarray.py:146 | A digit behind one of the separators U+001C to U+001F reads as that digit, as `int()` strips those characters like other whitespace. |
| QcFlags.CastInts | argopy/xarray.py:146 | The integer cast succeeds if and only if every entry parses to an integer that fits in 64 bits. It then gives each entry's value. |
| QcFlags.OverflowRefused | argopy/xarray.py:146 | `2^64` printed reads as an integer, but the cast refuses it. |
| QcFlags.NormaliseQc | argopy/xarray.py:122-146 | A QC variable is cleaned at its dtype width: the longest entry for an object array, the declared width for a unicode array. It becomes integer flags exactly when every cleaned entry parses to a 64-bit integer, giving each cleaned entry's value. Otherwise it keeps the cleaned strings. |
| QcFlags.FlagArray | argopy/xarray.py:122-146 | A width-1 or width-3 array of digits and markers always becomes integer flags: a digit's value, or 0 for a marker. |
| QcFlags.DeclaredWidthDecides | argopy/xarray.py:122-146 | A `<U3` unicode array `['1', ' n']` becomes the flags `[1, 0]`. The same entries in an object array are cast to `<U2`, are left uncleaned and stay strings. |
| QcFlags.QcNames | argopy/xarray.py:122 | The branch applies to `DOXY_QC` and `DOXY_ADJUSTED_QC`, not to `PROFILE_DOXY_QC` or `DOXY`. |
| DataMode.FirstMissing | argopy/xarray.py:244-270 | Reports nothing if and only if every variable read is present. Otherwise it reports the first missing variable, in reading order. |
| DataMode.FilterWith | argopy/xarray.py:202-329 | The filter fails if and only if a variable it reads is missing, and then names the first such variable. Success means `DATA_MODE` and every variable read for each selected parameter are present. |
| DataMode.MissingAdjustedFails | argopy/xarray.py:244-251 | A present parameter without its `_ADJUSTED` variable makes the filter fail. |
| DataMode.RowSelection | argopy/xarray.py:214-270 | Per row, a filtered parameter and its `_QC` take the raw values on an `'R'` row and the adjusted ones on an `'A'` row. A `'D'` row takes the adjusted value, or the raw value where the adjusted one is NaN, with the adjusted flag. Any other mode gives NaN. |
| DataMode.RowError | argopy/xarray.py:265-268 | With errors kept, an `'A'` or `'D'` row carries the adjusted error, and any other row NaN. |
| DataMode.DelayedMissing | argopy/xarray.py:244-251 | A `'D'` row's value is NaN if and only if both its adjusted and raw values are. |
| DataMode.OutputNames | argopy/xarray.py:311-322 | The output variables are exactly the selected parameters with `_QC` (and `_ERROR` when kept), plus the input variables without `ADJUSTED` in their name. No output name contains `ADJUSTED`. |
| DataMode.OtherVariablesKept | argopy/xarray.py:319-322 | Every other input variable without `ADJUSTED` in its name comes through unchanged. |
| DataMode.DoxyPassedThrough | argopy/xarray.py:309-316 | As written, `DOXY` is never selected and comes through raw, whatever the data modes. |
| DataMode.DoxySelected | argopy/xarray.py:309-316 | With the test corrected, a `'D'` row's `DOXY` is its adjusted value wherever that is not NaN. |
| DataMode.DoxyDiscrepancy | argopy/xarray.py:309-316 | On a `'D'` row whose adjusted oxygen is not NaN and differs from the raw value, the two versions report different values. |
| DataMode.AsWrittenSucceedsToo | argopy/xarray.py:286-316 | Whenever the corrected filter succeeds, so does the one as written. |

## Left out

- In-place side effects on the input dataset are not modelled: the dummy
  counter and uid variables `point2profile` adds. Datasets are values.
- Console output and cast markers are not modelled. When a cast fails,
  `cast_types` prints three diagnostic lines. When a cast succeeds, it sets
  the `casted` attribute.
- Attributes, including the `history` text `filter_data_mode` adds to its
  result, the `sparsiness` attribute and the alphabetical re-sorting of
  variables are left out. They are bookkeeping that does not change any
  value.
- Floating point is not modelled: the codec computes `1e4 * wmo + cyc` in
  doubles before `int()` truncates. The model computes exactly. This only
  differs for float ids beyond 2^53 / 10^4.
- The datetime parsing and generic type casts of `cast_types` are left out,
  as is `cast_types_deprec`. Only the QC branch is modelled.
- The `cast_types` call that ends `filter_data_mode` is not composed with
  the filter. `QcFlags` models what it does to each QC column.
- Object arrays of bytes converted to strings before cleaning are not
  modelled. A QC variable is modelled as an array of strings.
- QcFlags.ParseInt: reads ASCII digits, the ASCII whitespace `str.strip`
  removes (including the separators U+001C to U+001F), an optional sign and
  single underscores between digits. Non-ASCII digits and whitespace, which
  Python's `int()` also accepts, are not modelled.
- `LocalLoader`, file I/O, the fetchers and plotters are not part of this
  model.
- Accessor.ToPoints: takes the stacking order as a parameter. It is not
  derived from xarray's ordering of the dataset's dimensions.
- RoundTrip.PointToProfileToPoint: assumes the points are already sorted by
  uid and numbered. It also assumes they carry no coordinates along `index`,
  which the reshape sets to fill values. Even then, the points come back
  with `LATITUDE`, `LONGITUDE`, `TIME` and `JULD` marked as coordinates.
  The source's round-trip test compares against the original points with
  xarray's `equals`, which also compares coordinates. The model therefore
  does not show that test's equality for data carrying those variables.
  The test also fetches live data that nothing sorts or de-pads first.
- Accessor.ToProfiles / Accessor.ToPoints: only collections of points along
  `index` and of profiles along `N_PROF` × `N_LEVELS` are modelled. Other
  dataset shapes that still open also reach the source's conversions, for
  example one with an extra `N_PARAM` or `N_CALIB` dimension. The model
  returns `UnsupportedContent` for them. The source would grid only the
  `index` variables, or stack every dimension. `UnsupportedContent` is also
  what `profile2point` gives on an accessor that a successful
  `point2profile` switched to profiles while it still holds the original
  points. There the source passes its layout guard and then raises from
  `stack` or `drop`, an error the model does not name.
- Cells.Kind: padding is modelled for string, signed integer, datetime,
  float, complex and object variables. Other kinds of variables are not
  modelled: booleans, unsigned integers, timedeltas and bytes. The source
  casts the NaN fill value to their dtype, giving `True`, an arbitrary
  unsigned value, `NaT` or the text `b'nan'` cut to the dtype's item size
  (`b'n'` for `S1`, `b'na'` for `S2`).
- Reshape.Point2Profile: its contract promises room for every point, not
  that every point is placed. Placement is proved within the codec's
  range (`ReshapeProperties.PointPlaced`). Outside it, a point can be lost
  (`ReshapeProperties.OverflowLosesPoint`).
- The row selection of `filter_data_mode` is stated for rows whose mode is
  exactly `'R'`, `'A'` or `'D'`. xarray's merge of the three row subsets
  with NaN elsewhere is modelled by giving NaN to rows of any other mode.

## Findings

| source | as written | input that shows it | evidently intended | confidence | as-written member | corrected member |
|---|---|---|---|---|---|---|
| argopy/xarray.py:309-316 | `'doxy' in plist` tests a lower-case name, but `plist` only holds upper-case names. So `DOXY` is never filtered, and raw `DOXY` and `DOXY_QC` pass through as other variables. | One `'D'` row with `DOXY = 1.0` and `DOXY_ADJUSTED = 2.0` (plus the PRES/TEMP/PSAL variables): the output reports `DOXY = 1.0`. | Filter `DOXY` like the other parameters when present, reporting `2.0`. | not executed | DataMode.FilterDataModeAsWritten (DataMode.DoxyPassedThrough, DataMode.DoxyDiscrepancy) | DataMode.FilterDataMode (DataMode.DoxySelected) |

=== FILE: accessor.dfy ===
/** The `argo` accessor: it records, when first opened on a dataset,
    whether the dataset is a collection of profiles (it has an `N_PROF`
    dimension) or of points (it has an `index` dimension), and guards each
    conversion by that record. */
module Accessor {
  import opened Errors
  import opened Points
  import opened Reshape
  import opened ReshapeProperties
  import opened Flatten
  import opened RoundTrip

  datatype Layout = ProfileLayout | PointLayout

  /** A dataset the accessor can be opened on: a collection of points, a
      collection of profiles, or anything else, known only by its
      dimensions. */
  datatype Dataset = PointData(ps: PointSet) | ProfileData(pf: ProfileSet) | OtherData(dims: set<string>)

  function Dims(d: Dataset): set<string>
  {
    match d
    case PointData(_) => {"index"}
    case ProfileData(_) => {"N_PROF", "N_LEVELS"}
    case OtherData(dims) => dims
  }

  /** Every variable of a dataset shares its dimensions. */
  predicate Valid(d: Dataset)
  {
    match d
    case PointData(ps) => WellFormed(ps)
    case ProfileData(pf) => ProfileWellFormed(pf)
    case OtherData(_) => true
  }

  /** The accessor's state: the dataset it was opened on and the layout it
      recorded, which only `point2profile` changes. */
  datatype Accessor = Accessor(obj: Dataset, layout: Layout)

  /** Opening the accessor: `N_PROF` wins over `index`; a dataset with
      neither is refused. */
  function Open(d: Dataset): (r: Result<Accessor>)
    ensures r.Success? <==> "N_PROF" in Dims(d) || "index" in Dims(d)
    ensures r.Success? ==> r.value.obj == d
    ensures r.Success? ==> (r.value.layout == ProfileLayout <==> "N_PROF" in Dims(d))
    ensures r.Failure? ==> r.error.InvalidDatasetStructure?
    ensures d.PointData? ==> r == Success(Accessor(d, PointLayout))
    ensures d.ProfileData? ==> r == Success(Accessor(d, ProfileLayout))
  {
    if "N_PROF" in Dims(d) then Success(Accessor(d, ProfileLayout))
    else if "index" in Dims(d) then Success(Accessor(d, PointLayout))
    else Failure(InvalidDatasetStructure("Argo dataset structure not recognised"))
  }

  /** `ds.argo.point2profile()`: refused unless the accessor records a
      collection of points; on success it returns the collection of
      profiles and the accessor now records a collection of profiles,
      although the dataset it was opened on is unchanged. */
  function ToProfiles(a: Accessor): (r: Result<(Dataset, Accessor)>)
    requires Valid(a.obj)
    ensures a.layout != PointLayout ==> r.Failure? && r.error.InvalidDatasetStructure?
    ensures r.Success? ==> a.layout == PointLayout && a.obj.PointData?
    ensures r.Success? ==> r.value.1 == Accessor(a.obj, ProfileLayout)
    ensures r.Success? ==> r.value.0.ProfileData? && Valid(r.value.0)
    ensures a.layout == PointLayout && a.obj.PointData? ==>
      (r.Success? <==> Point2Profile(a.obj.ps).Success?)
      && (r.Success? ==> r.value.0 == ProfileData(Point2Profile(a.obj.ps).value))
      && (r.Failure? ==> r.error == Point2Profile(a.obj.ps).error)
  {
    if a.layout != PointLayout then
      Failure(InvalidDatasetStructure("Method only available to a collection of points"))
    else
      match a.obj
      case PointData(ps) =>
        (match Point2Profile(ps)
         case Failure(e) => Failure(e)
         case Success(pf) => Success((ProfileData(pf), Accessor(a.obj, ProfileLayout))))
      case _ => Failure(UnsupportedContent)
  }

  /** `ds.argo.profile2point()`: refused unless the accessor records a
      collection of profiles; the accessor itself is left as it is. */
  function ToPoints(a: Accessor, order: StackOrder): (r: Result<Dataset>)
    requires Valid(a.obj)
    ensures a.layout != ProfileLayout ==> r.Failure? && r.error.InvalidDatasetStructure?
    ensures a.layout == ProfileLayout && a.obj.ProfileData? ==>
      r == Success(PointData(Profile2Point(a.obj.pf, order)))
    ensures r.Success? ==> r.value.PointData? && Valid(r.value)
  {
    if a.layout != ProfileLayout then
      Failure(InvalidDatasetStructure("Method only available for a collection of profiles (N_PROF dimemsion)"))
    else
      match a.obj
      case ProfileData(pf) => Success(PointData(Profile2Point(pf, order)))
      case _ => Failure(UnsupportedContent)
  }

  /** A collection of points opens with the point layout, so converting it
      to points is refused. */
  lemma PointsRefuseToPoints(ps: PointSet, order: StackOrder)
    requires WellFormed(ps)
    ensures Open(PointData(ps)).Success?
    ensures ToPoints(Open(PointData(ps)).value, order).Failure?
    ensures ToPoints(Open(PointData(ps)).value, order).error.InvalidDatasetStructure?
  {
  }

  /** The accessor of a collection of points converts it once: the second
      call on the same accessor is refused. */
  lemma SecondConversionRefused(ps: PointSet)
    requires WellFormed(ps) && ToProfiles(Accessor(PointData(ps), PointLayout)).Success?
    ensures var a := ToProfiles(Accessor(PointData(ps), PointLayout)).value.1;
      ToProfiles(a).Failure? && ToProfiles(a).error.InvalidDatasetStructure?
  {
  }

  /** A successful conversion yields a dataset with an `N_PROF` dimension,
      which opens as a collection of profiles of the grid's shape. */
  lemma ConvertedOpensAsProfiles(ps: PointSet)
    requires WellFormed(ps) && ToProfiles(Accessor(PointData(ps), PointLayout)).Success?
    ensures var d := ToProfiles(Accessor(PointData(ps), PointLayout)).value.0;
      && "N_PROF" in Dims(d)
      && Open(d).Success? && Open(d).value.layout == ProfileLayout
      && |d.pf.profiles| * d.pf.nLevels >= |ps.points|
  {
  }

  /** Through the accessor, points converted to profiles and back, stacking
      profile by profile, are the original points, the coordinate variables
      marked as coordinates. */
  lemma AccessorRoundTrip(ps: PointSet, keys: seq<int>, nLevels: nat)
    requires WellFormed(ps) && AllInRange(ps) && Numbered(ps) && NoCoordinates(ps)
    requires SortedWithoutPadding(ps, keys, nLevels)
    requires |ps.points| > 0
    ensures Open(PointData(ps)).Success?
    ensures ToProfiles(Open(PointData(ps)).value).Success?
    ensures var d := ToProfiles(Open(PointData(ps)).value).value.0;
      && Open(d).Success?
      && ToPoints(Open(d).value, ProfileMajor) == Success(PointData(PointSet(MarkCoords(ps.vars), ps.points)))
  {
    PointToProfileToPoint(ps, keys, nLevels);
  }
}

=== FILE: cells.dfy ===
/** Cell values of a dataset variable, the fill value `point2profile` pads
    with, and the order `np.unique` sorts values in. NaN and NaT are cells of
    their own rather than floating-point values. */
module Cells {

  /** `dtype.kind` as `fillvalue` distinguishes it: 'U', 'i', 'M', and the
      kinds padded with NaN that can hold it: floats, complex numbers and
      objects. */
  datatype Kind = Unicode | SignedInt | Datetime | OtherKind

  datatype Cell =
    | Str(s: string)
    | Int(i: int)
    | Num(x: real)
    | Time(t: int)
    | NaN
    | NaT

  predicate Missing(c: Cell)
  {
    c.NaN? || c.NaT?
  }

  /** Whether a cell can be stored in an array of the given kind. */
  predicate HasKind(c: Cell, k: Kind)
  {
    match k
    case Unicode => c.Str?
    case SignedInt => c.Int?
    case Datetime => c.Time? || c.NaT?
    case OtherKind => c.Num? || c.NaN?
  }

  /** `fillvalue`: the padding value of an array of the given kind. Datetime
      and float-like arrays are padded with a missing value; string and
      integer arrays, which cannot hold one, with a sentinel. */
  function Fill(k: Kind): (c: Cell)
    ensures HasKind(c, k)
    ensures Missing(c) <==> (k == Datetime || k == OtherKind)
    ensures k == Unicode ==> c.s == " "
    ensures k == SignedInt ==> c.i == 99999
  {
    match k
    case Unicode => Str(" ")
    case SignedInt => Int(99999)
    case Datetime => NaT
    case OtherKind => NaN
  }

  /** Lexicographic order of code points, numpy's order on unicode arrays. */
  predicate StrLe(a: string, b: string)
    decreases |a|
  {
    |a| == 0 || (|b| > 0 && (a[0] < b[0] || (a[0] == b[0] && StrLe(a[1..], b[1..]))))
  }

  lemma {:induction false} StrLeTotal(a: string, b: string)
    ensures StrLe(a, b) || StrLe(b, a)
    decreases |a|
  {
    if |a| > 0 && |b| > 0 && a[0] == b[0] {
      StrLeTotal(a[1..], b[1..]);
    }
  }

  lemma {:induction false} StrLeTrans(a: string, b: string, c: string)
    requires StrLe(a, b) && StrLe(b, c)
    ensures StrLe(a, c)
    decreases |a|
  {
    if |a| > 0 && a[0] == b[0] && b[0] == c[0] {
      StrLeTrans(a[1..], b[1..], c[1..]);
    }
  }

  /** Position of a cell's constructor in the sort; the missing values sort
      last, as numpy puts NaN and NaT after every other value. */
  function Rank(c: Cell): nat
  {
    match c
    case Str(_) => 0
    case Int(_) => 1
    case Num(_) => 2
    case Time(_) => 3
    case NaN => 4
    case NaT => 5
  }

  /** The total preorder `np.unique` sorts a variable's values by. */
  predicate Le(a: Cell, b: Cell)
  {
    if Rank(a) != Rank(b) then Rank(a) < Rank(b)
    else match (a, b)
      case (Str(x), Str(y)) => StrLe(x, y)
      case (Int(x), Int(y)) => x <= y
      case (Num(x), Num(y)) => x <= y
      case (Time(x), Time(y)) => x <= y
      case _ => true
  }

  lemma LeTotal(a: Cell, b: Cell)
    ensures Le(a, b) || Le(b, a)
  {
    if a.Str? && b.Str? {
      StrLeTotal(a.s, b.s);
    }
  }

  lemma LeTransitive()
    ensures forall a, b, c :: Le(a, b) && Le(b, c) ==> Le(a, c)
  {
    forall a, b, c | Le(a, b) && Le(b, c)
      ensures Le(a, c)
    {
      if a.Str? && b.Str? && c.Str? {
        StrLeTrans(a.s, b.s, c.s);
      }
    }
  }

  /** `np.unique(values)[0]`: the least value, which is a measurement
      whenever the values hold one. */
  function FirstSorted(s: seq<Cell>): (r: Cell)
    requires |s| > 0
    ensures r in s
    ensures forall x :: x in s ==> Le(r, x)
    ensures (exists x :: x in s && !Missing(x)) ==> !Missing(r)
  {
    if |s| == 1 then LeTotal(s[0], s[0]); s[0]
    else
      var m := FirstSorted(s[1..]);
      LeTransitive();
      LeTotal(s[0], m);
      LeTotal(s[0], s[0]);
      assert forall x :: x in s ==> x == s[0] || x in s[1..];
      if Le(s[0], m) then s[0] else m
  }
}

=== FILE: datamode.dfy ===
/** `filter_data_mode`: on a collection of points, each measured parameter
    is replaced by the values its row's data mode designates. Real-time rows
    ('R') keep the raw values and flags; adjusted rows ('A') and
    delayed-mode rows ('D') take the adjusted values, flags and errors, a
    delayed-mode row falling back to the raw value where the adjusted one is
    NaN. The `_ADJUSTED` variables are dropped and every other variable is
    kept as it is. */
module DataMode {
  import opened Errors
  import opened Cells
  import opened Text

  /** A collection of points as the filter sees it: `n` rows along `index`
      and one column per variable. */
  datatype Table = Table(n: nat, columns: map<string, seq<Cell>>)

  predicate TableWellFormed(t: Table)
  {
    forall name :: name in t.columns ==> |t.columns[name]| == t.n
  }

  /** `possible_list`. */
  const Possible: seq<string> := ["PRES", "TEMP", "PSAL", "DOXY"]

  /** The parameters `new_arrays` is always called on. */
  const Core: seq<string> := ["PRES", "TEMP", "PSAL"]

  /** `plist`: the possible parameters present in the dataset, in order. */
  function PresentOf(names: seq<string>, t: Table): (r: seq<string>)
    ensures forall x :: x in r <==> x in names && x in t.columns
  {
    if |names| == 0 then []
    else
      assert forall x :: x in names <==> x == names[0] || x in names[1..];
      (if names[0] in t.columns then [names[0]] else []) + PresentOf(names[1..], t)
  }

  /** The variables one call of `new_arrays` reads, in the order it reads
      them. */
  function ParamNeeds(p: string, keepError: bool): seq<string>
  {
    [p, p + "_ADJUSTED", p + "_QC", p + "_ADJUSTED_QC"] + (if keepError then [p + "_ADJUSTED_ERROR"] else [])
  }

  function Needs(params: seq<string>, keepError: bool): (r: seq<string>)
    ensures forall p, x :: p in params && x in ParamNeeds(p, keepError) ==> x in r
  {
    if |params| == 0 then []
    else
      assert forall p :: p in params ==> p == params[0] || p in params[1..];
      ParamNeeds(params[0], keepError) + Needs(params[1..], keepError)
  }

  /** The adjusted variable of each name. */
  function AdjustedNames(names: seq<string>): (r: seq<string>)
    ensures |r| == |names|
    ensures forall p :: p in names ==> p + "_ADJUSTED" in r
  {
    if |names| == 0 then []
    else
      assert forall p :: p in names ==> p == names[0] || p in names[1..];
      [names[0] + "_ADJUSTED"] + AdjustedNames(names[1..])
  }

  /** Every variable the filter reads before it can finish: `DATA_MODE`,
      then the adjusted variable of each present parameter (read by
      `fill_adjusted_nan`), then what `new_arrays` reads for each filtered
      parameter. */
  function Required(t: Table, keepError: bool, params: seq<string>): seq<string>
  {
    ["DATA_MODE"] + AdjustedNames(PresentOf(Possible, t)) + Needs(params, keepError)
  }

  /** The first of `names` the dataset lacks: the `KeyError` raised. */
  function FirstMissing(names: seq<string>, cols: map<string, seq<Cell>>): (r: Option<string>)
    ensures r.None? <==> forall x :: x in names ==> x in cols
    ensures r.Some? ==> exists k :: FirstAbsent(names, cols, k) && names[k] == r.value
  {
    if |names| == 0 then None
    else if names[0] !in cols then Some(names[0])
    else
      var r := FirstMissing(names[1..], cols);
      assert forall x :: x in names ==> x == names[0] || x in names[1..];
      if r.Some? then
        var k :| FirstAbsent(names[1..], cols, k) && names[1..][k] == r.value;
        assert FirstAbsent(names, cols, k + 1);
        r
      else r
  }

  /** `names[k]` is the first of `names` missing from `cols`. */
  predicate FirstAbsent(names: seq<string>, cols: map<string, seq<Cell>>, k: int)
  {
    0 <= k < |names| && names[k] !in cols && forall j :: 0 <= j < k ==> names[j] in cols
  }

  predicate AllPresent(names: seq<string>, cols: map<string, seq<Cell>>)
  {
    forall x :: x in names ==> x in cols
  }

  /** A cell of a column, read as NaN where the column or the row is absent. */
  function Get(t: Table, name: string, i: nat): Cell
  {
    if name in t.columns && i < |t.columns[name]| then t.columns[name][i] else NaN
  }

  function Mode(t: Table, i: nat): Cell
  {
    Get(t, "DATA_MODE", i)
  }

  /** The value of parameter `p` on row `i` after filtering: the raw value
      on a real-time row, the adjusted value on an adjusted row, the adjusted
      value or, where it is NaN, the raw value on a delayed-mode row, and
      NaN on a row of any other mode, which none of the three merged parts
      covers. */
  function ValueAt(t: Table, p: string, i: nat): Cell
  {
    var m := Mode(t, i);
    if m == Str("R") then Get(t, p, i)
    else if m == Str("A") then Get(t, p + "_ADJUSTED", i)
    else if m == Str("D") then
      if Get(t, p + "_ADJUSTED", i).NaN? then Get(t, p, i) else Get(t, p + "_ADJUSTED", i)
    else NaN
  }

  /** The flag of parameter `p` on row `i`: raw on a real-time row,
      adjusted on an adjusted or delayed-mode row. */
  function QcAt(t: Table, p: string, i: nat): Cell
  {
    var m := Mode(t, i);
    if m == Str("R") then Get(t, p + "_QC", i)
    else if m == Str("A") || m == Str("D") then Get(t, p + "_ADJUSTED_QC", i)
    else NaN
  }

  /** The error of parameter `p` on row `i`: only adjusted and delayed-mode
      rows carry one. */
  function ErrorAt(t: Table, p: string, i: nat): Cell
  {
    var m := Mode(t, i);
    if m == Str("A") || m == Str("D") then Get(t, p + "_ADJUSTED_ERROR", i) else NaN
  }

  /** The suffixes of the variables `new_arrays` returns. */
  function Suffixes(keepError: bool): seq<string>
  {
    ["", "_QC"] + (if keepError then ["_ERROR"] else [])
  }

  /** The column named `p + s` of the filtered dataset. */
  function Selection(t: Table, p: string, s: string): seq<Cell>
  {
    seq(t.n, i requires 0 <= i < t.n =>
      if s == "" then ValueAt(t, p, i) else if s == "_QC" then QcAt(t, p, i) else ErrorAt(t, p, i))
  }

  predicate FourLetters(params: seq<string>)
  {
    forall p :: p in params ==> |p| == 4
  }

  function FinalNames(params: seq<string>, keepError: bool): set<string>
  {
    set p, s | p in params && s in Suffixes(keepError) :: p + s
  }

  /** `final` before the other variables join it. A name is split back into
      its parameter and suffix at the fourth letter. */
  function FinalColumns(t: Table, params: seq<string>, keepError: bool): map<string, seq<Cell>>
    requires FourLetters(params)
  {
    map name | name in FinalNames(params, keepError) :: Selection(t, name[..4], name[4..])
  }

  /** `other_variables`: every variable whose name lacks `ADJUSTED` and is
      not already in `final`, copied as it is. */
  function Others(t: Table, final: map<string, seq<Cell>>): map<string, seq<Cell>>
  {
    map name | name in t.columns && !Contains(name, "ADJUSTED") && name !in final :: t.columns[name]
  }

  /** The filtered dataset: `final` joined by the other variables. */
  function Filtered(t: Table, params: seq<string>, keepError: bool): Table
    requires FourLetters(params)
  {
    var final := FinalColumns(t, params, keepError);
    Table(t.n, final + Others(t, final))
  }

  /** The filter with a given list of parameters to select. */
  function FilterWith(t: Table, keepError: bool, params: seq<string>): (r: Result<Table>)
    requires FourLetters(params)
    ensures r.Success? <==> AllPresent(Required(t, keepError, params), t.columns)
    ensures r.Success? ==> r.value == Filtered(t, params, keepError)
    ensures r.Success? ==> "DATA_MODE" in t.columns
    ensures r.Success? ==> forall p :: p in params ==> AllPresent(ParamNeeds(p, keepError), t.columns)
    ensures r.Failure? ==> exists k :: FirstAbsent(Required(t, keepError, params), t.columns, k)
                                    && r.error == MissingVariable(Required(t, keepError, params)[k])
  {
    var missing := FirstMissing(Required(t, keepError, params), t.columns);
    if missing.Some? then Failure(MissingVariable(missing.value))
    else
      ReadsPresent(t, keepError, params);
      Success(Filtered(t, params, keepError))
  }

  lemma ReadsPresent(t: Table, keepError: bool, params: seq<string>)
    requires AllPresent(Required(t, keepError, params), t.columns)
    ensures "DATA_MODE" in t.columns
    ensures forall p :: p in params ==> AllPresent(ParamNeeds(p, keepError), t.columns)
  {
    forall p | p in params
      ensures AllPresent(ParamNeeds(p, keepError), t.columns)
    {
      ReadsNeeds(t, keepError, params, p);
    }
    assert Required(t, keepError, params)[0] == "DATA_MODE";
  }

  /** What `new_arrays` reads for a selected parameter is among what the
      filter reads. */
  lemma ReadsNeeds(t: Table, keepError: bool, params: seq<string>, p: string)
    requires AllPresent(Required(t, keepError, params), t.columns) && p in params
    ensures AllPresent(ParamNeeds(p, keepError), t.columns)
  {
    var req := Required(t, keepError, params);
    forall x | x in ParamNeeds(p, keepError)
      ensures x in t.columns
    {
      assert x in Needs(params, keepError);
      assert x in req;
    }
  }

  /** `filter_data_mode(keep_error)` as written: the test `'doxy' in plist`
      compares against a lower-case name that `plist` never holds, so only
      pressure, temperature and salinity are selected. */
  function FilterDataModeAsWritten(t: Table, keepError: bool): Result<Table>
  {
    FilterWith(t, keepError, Core)
  }

  /** The parameters selected when the oxygen test matches `DOXY`. */
  function Selected(t: Table): (r: seq<string>)
    ensures FourLetters(r)
    ensures forall p :: p in r <==> p in Core || (p == "DOXY" && "DOXY" in t.columns)
  {
    Core + (if "DOXY" in t.columns then ["DOXY"] else [])
  }

  /** `filter_data_mode(keep_error)` with the oxygen test corrected: `DOXY`
      is selected like the other parameters whenever the dataset has it. */
  function FilterDataMode(t: Table, keepError: bool): Result<Table>
  {
    FilterWith(t, keepError, Selected(t))
  }

  // Properties of the filter.

  lemma FinalLookup(t: Table, params: seq<string>, keepError: bool, p: string, s: string)
    requires FourLetters(params) && p in params && s in Suffixes(keepError)
    ensures p + s in Filtered(t, params, keepError).columns
    ensures Filtered(t, params, keepError).columns[p + s] == Selection(t, p, s)
  {
    assert (p + s)[..4] == p && (p + s)[4..] == s;
    assert p + s in FinalNames(params, keepError);
  }

  /** The value `ValueAt` picks, in terms of the dataset's columns. */
  lemma ValueCases(t: Table, p: string, i: nat)
    requires TableWellFormed(t) && i < t.n
    requires "DATA_MODE" in t.columns && p in t.columns && p + "_ADJUSTED" in t.columns
    ensures var m := t.columns["DATA_MODE"][i];
      && (m == Str("R") ==> ValueAt(t, p, i) == t.columns[p][i])
      && (m == Str("A") ==> ValueAt(t, p, i) == t.columns[p + "_ADJUSTED"][i])
      && (m == Str("D") ==>
            ValueAt(t, p, i) == (if t.columns[p + "_ADJUSTED"][i].NaN? then t.columns[p][i] else t.columns[p + "_ADJUSTED"][i]))
      && (m != Str("R") && m != Str("A") && m != Str("D") ==> ValueAt(t, p, i) == NaN)
  {
  }

  lemma QcCases(t: Table, p: string, i: nat)
    requires TableWellFormed(t) && i < t.n
    requires "DATA_MODE" in t.columns && p + "_QC" in t.columns && p + "_ADJUSTED_QC" in t.columns
    ensures var m := t.columns["DATA_MODE"][i];
      && (m == Str("R") ==> QcAt(t, p, i) == t.columns[p + "_QC"][i])
      && ((m == Str("A") || m == Str("D")) ==> QcAt(t, p, i) == t.columns[p + "_ADJUSTED_QC"][i])
      && (m != Str("R") && m != Str("A") && m != Str("D") ==> QcAt(t, p, i) == NaN)
  {
  }

  lemma FilteredCells(t: Table, params: seq<string>, keepError: bool, p: string, i: nat)
    requires FourLetters(params) && p in params && i < t.n
    ensures var out := Filtered(t, params, keepError).columns;
      && p in out && p + "_QC" in out && |out[p]| == |out[p + "_QC"]| == t.n
    ensures var out := Filtered(t, params, keepError).columns;
      out[p][i] == ValueAt(t, p, i) && out[p + "_QC"][i] == QcAt(t, p, i)
  {
    assert p + "" == p;
    FinalLookup(t, params, keepError, p, "");
    FinalLookup(t, params, keepError, p, "_QC");
  }
  lemma ErrorCell(t: Table, params: seq<string>, p: string, i: nat)
    requires FourLetters(params) && p in params && i < t.n
    ensures var out := Filtered(t, params, true).columns;
      p + "_ERROR" in out && |out[p + "_ERROR"]| == t.n
    ensures Filtered(t, params, true).columns[p + "_ERROR"][i] == ErrorAt(t, p, i)
  {
    FinalLookup(t, params, true, p, "_ERROR");
  }

  /** Row by row, a filtered parameter holds what the row's data mode
      designates: the raw value and flag on a real-time row, the adjusted
      ones on an adjusted row, on a delayed-mode row the adjusted value or,
      where that is NaN, the raw one, with the adjusted flag, and NaN on a
      row of any other mode. */
  lemma RowSelection(t: Table, keepError: bool, params: seq<string>, p: string, i: nat)
    requires TableWellFormed(t) && FourLetters(params)
    requires FilterWith(t, keepError, params).Success? && p in params && i < t.n
    ensures && "DATA_MODE" in t.columns && p in t.columns && p + "_ADJUSTED" in t.columns
            && p + "_QC" in t.columns && p + "_ADJUSTED_QC" in t.columns
    ensures var out := FilterWith(t, keepError, params).value.columns;
      && p in out && p + "_QC" in out && |out[p]| == |out[p + "_QC"]| == t.n
    ensures var out := FilterWith(t, keepError, params).value.columns;
      var m := t.columns["DATA_MODE"][i];
      && (m == Str("R") ==> out[p][i] == t.columns[p][i] && out[p + "_QC"][i] == t.columns[p + "_QC"][i])
      && (m == Str("A") ==>
            out[p][i] == t.columns[p + "_ADJUSTED"][i] && out[p + "_QC"][i] == t.columns[p + "_ADJUSTED_QC"][i])
      && (m == Str("D") ==>
            && out[p][i] == (if t.columns[p + "_ADJUSTED"][i].NaN? then t.columns[p][i] else t.columns[p + "_ADJUSTED"][i])
            && out[p + "_QC"][i] == t.columns[p + "_ADJUSTED_QC"][i])
      && (m != Str("R") && m != Str("A") && m != Str("D") ==> out[p][i] == NaN && out[p + "_QC"][i] == NaN)
  {
    assert p in ParamNeeds(p, keepError) && p + "_ADJUSTED" in ParamNeeds(p, keepError);
    assert p + "_QC" in ParamNeeds(p, keepError) && p + "_ADJUSTED_QC" in ParamNeeds(p, keepError);
    FilteredCells(t, params, keepError, p, i);
    ValueCases(t, p, i);
    QcCases(t, p, i);
  }

  /** With errors kept, an adjusted or delayed-mode row carries the adjusted
      error and a row of any other mode none. */
  lemma RowError(t: Table, params: seq<string>, p: string, i: nat)
    requires TableWellFormed(t) && FourLetters(params)
    requires FilterWith(t, true, params).Success? && p in params && i < t.n
    ensures "DATA_MODE" in t.columns && p + "_ADJUSTED_ERROR" in t.columns
    ensures var out := FilterWith(t, true, params).value.columns;
      p + "_ERROR" in out && |out[p + "_ERROR"]| == t.n
    ensures var out := FilterWith(t, true, params).value.columns;
      var m := t.columns["DATA_MODE"][i];
      && ((m == Str("A") || m == Str("D")) ==> out[p + "_ERROR"][i] == t.columns[p + "_ADJUSTED_ERROR"][i])
      && (m != Str("A") && m != Str("D") ==> out[p + "_ERROR"][i] == NaN)
  {
    assert p + "_ADJUSTED_ERROR" in ParamNeeds(p, true);
    ErrorCell(t, params, p, i);
  }

  /** A delayed-mode value is missing exactly where both the adjusted and
      the raw value are. */
  lemma DelayedMissing(t: Table, keepError: bool, params: seq<string>, p: string, i: nat)
    requires TableWellFormed(t) && FourLetters(params)
    requires FilterWith(t, keepError, params).Success? && p in params && i < t.n
    requires "DATA_MODE" in t.columns && t.columns["DATA_MODE"][i] == Str("D")
    ensures p in t.columns && p + "_ADJUSTED" in t.columns
    ensures var out := FilterWith(t, keepError, params).value.columns;
      p in out && |out[p]| == t.n
    ensures var out := FilterWith(t, keepError, params).value.columns;
      out[p][i].NaN? <==> t.columns[p + "_ADJUSTED"][i].NaN? && t.columns[p][i].NaN?
  {
    RowSelection(t, keepError, params, p, i);
  }

  /** A present parameter without its adjusted variable makes the filter
      fail: `fill_adjusted_nan` reads that variable. */
  lemma MissingAdjustedFails(t: Table, keepError: bool, params: seq<string>, p: string)
    requires FourLetters(params) && p in Possible && p in t.columns && p + "_ADJUSTED" !in t.columns
    ensures FilterWith(t, keepError, params).Failure?
  {
    var req := Required(t, keepError, params);
    assert p in PresentOf(Possible, t);
    assert p + "_ADJUSTED" in AdjustedNames(PresentOf(Possible, t));
    assert p + "_ADJUSTED" in req;
  }

  /** A name at most ten letters long with an underscore as its fifth letter
      (when it has eight or more) lacks `ADJUSTED`. */
  lemma ShortNameLacksAdjusted(name: string)
    requires |name| <= 10 && (|name| >= 8 ==> name[4] == '_')
    ensures !Contains(name, "ADJUSTED")
  {
    forall i | 0 <= i <= |name|
      ensures !OccursAt(name, "ADJUSTED", i)
    {
      if i + 8 <= |name| {
        assert name[i..i + 8][4 - i] == name[4];
        assert "ADJUSTED"[4 - i] != '_' by {
          if i == 0 {} else if i == 1 {} else {}
        }
      }
    }
  }

  lemma FinalNameLacksAdjusted(params: seq<string>, keepError: bool, name: string)
    requires FourLetters(params) && name in FinalNames(params, keepError)
    ensures !Contains(name, "ADJUSTED")
  {
    var p, s :| p in params && s in Suffixes(keepError) && name == p + s;
    assert s == "" || s == "_QC" || s == "_ERROR";
    assert |name| >= 8 ==> name[4] == s[0];
    ShortNameLacksAdjusted(name);
  }

  /** The filtered dataset's variables are the selected parameters with
      their flags (and errors when kept) and the input variables whose name
      lacks `ADJUSTED`; so none of them has `ADJUSTED` in its name. */
  lemma OutputNames(t: Table, keepError: bool, params: seq<string>)
    requires FourLetters(params) && FilterWith(t, keepError, params).Success?
    ensures forall name :: name in FilterWith(t, keepError, params).value.columns <==>
      name in FinalNames(params, keepError) || (name in t.columns && !Contains(name, "ADJUSTED"))
    ensures forall name :: name in FilterWith(t, keepError, params).value.columns ==> !Contains(name, "ADJUSTED")
  {
    FilteredNames(t, params, keepError);
    forall name | name in FinalNames(params, keepError)
      ensures !Contains(name, "ADJUSTED")
    {
      FinalNameLacksAdjusted(params, keepError, name);
    }
  }

  lemma FilteredNames(t: Table, params: seq<string>, keepError: bool)
    requires FourLetters(params)
    ensures forall name :: name in Filtered(t, params, keepError).columns <==>
      name in FinalNames(params, keepError) || (name in t.columns && !Contains(name, "ADJUSTED"))
  {
    var final := FinalColumns(t, params, keepError);
    assert final.Keys == FinalNames(params, keepError);
  }

  /** Every input variable that is not one the filter produces and whose
      name lacks `ADJUSTED` comes through unchanged. */
  lemma OtherVariablesKept(t: Table, keepError: bool, params: seq<string>, name: string)
    requires FourLetters(params) && FilterWith(t, keepError, params).Success?
    requires name in t.columns && name !in FinalNames(params, keepError) && !Contains(name, "ADJUSTED")
    ensures name in FilterWith(t, keepError, params).value.columns
    ensures FilterWith(t, keepError, params).value.columns[name] == t.columns[name]
  {
    var final := FinalColumns(t, params, keepError);
    assert name !in final;
    assert name in Others(t, final);
  }

  /** As written, the oxygen variable is never selected: `DOXY` comes
      through raw among the other variables, whatever the rows' data
      modes. */
  lemma DoxyPassedThrough(t: Table, keepError: bool)
    requires FilterDataModeAsWritten(t, keepError).Success? && "DOXY" in t.columns
    ensures "DOXY" in FilterDataModeAsWritten(t, keepError).value.columns
    ensures FilterDataModeAsWritten(t, keepError).value.columns["DOXY"] == t.columns["DOXY"]
  {
    forall p, s | p in Core && s in Suffixes(keepError)
      ensures p + s != "DOXY"
    {
      assert p == "PRES" || p == "TEMP" || p == "PSAL";
      assert (p + s)[0] == p[0];
    }
    assert "DOXY" !in FinalNames(Core, keepError);
    ShortNameLacksAdjusted("DOXY");
    OtherVariablesKept(t, keepError, Core, "DOXY");
  }

  /** With the oxygen test corrected, a delayed-mode row's oxygen is its
      adjusted value where that is not NaN. */
  lemma DoxySelected(t: Table, keepError: bool, i: nat)
    requires TableWellFormed(t) && FilterDataMode(t, keepError).Success? && "DOXY" in t.columns && i < t.n
    ensures "DATA_MODE" in t.columns && "DOXY_ADJUSTED" in t.columns
    ensures "DOXY" in FilterDataMode(t, keepError).value.columns
    ensures |FilterDataMode(t, keepError).value.columns["DOXY"]| == t.n
    ensures "DOXY_ADJUSTED" in t.columns && t.columns["DATA_MODE"][i] == Str("D") && !t.columns["DOXY_ADJUSTED"][i].NaN? ==>
      FilterDataMode(t, keepError).value.columns["DOXY"][i] == t.columns["DOXY_ADJUSTED"][i]
  {
    assert "DOXY" in Selected(t);
    assert "DOXY" + "_ADJUSTED" == "DOXY_ADJUSTED" by { AdjustedName(); }
    DelayedValue(t, keepError, Selected(t), "DOXY", i);
  }

  /** The corrected filter reads everything the one as written reads. */
  lemma AsWrittenSucceedsToo(t: Table, keepError: bool)
    requires FilterDataMode(t, keepError).Success?
    ensures FilterDataModeAsWritten(t, keepError).Success?
  {
    var req := Required(t, keepError, Selected(t));
    forall x | x in Required(t, keepError, Core)
      ensures x in t.columns
    {
      if x in Needs(Core, keepError) {
        NeedsPrefix(Core, Selected(t), keepError, x);
        assert x in req;
      } else {
        assert x in req;
      }
    }
  }

  lemma {:induction false} NeedsPrefix(a: seq<string>, b: seq<string>, keepError: bool, x: string)
    requires |a| <= |b| && a == b[..|a|] && x in Needs(a, keepError)
    ensures x in Needs(b, keepError)
    decreases |a|
  {
    if |a| > 0 {
      assert b == [b[0]] + b[1..];
      if x !in ParamNeeds(a[0], keepError) {
        assert x in Needs(a[1..], keepError);
        NeedsPrefix(a[1..], b[1..], keepError, x);
      }
    }
  }

  /** The discrepancy: on a delayed-mode row whose adjusted oxygen is not
      NaN and differs from the raw one, the filter as written reports the
      raw value where the corrected filter reports the adjusted one. */
  lemma DoxyDiscrepancy(t: Table, keepError: bool, i: nat)
    requires TableWellFormed(t) && FilterDataMode(t, keepError).Success? && "DOXY" in t.columns && i < t.n
    requires "DATA_MODE" in t.columns && "DOXY_ADJUSTED" in t.columns
    requires t.columns["DATA_MODE"][i] == Str("D")
    requires !t.columns["DOXY_ADJUSTED"][i].NaN? && t.columns["DOXY_ADJUSTED"][i] != t.columns["DOXY"][i]
    ensures FilterDataModeAsWritten(t, keepError).Success?
    ensures "DOXY" in FilterDataModeAsWritten(t, keepError).value.columns
    ensures "DOXY" in FilterDataMode(t, keepError).value.columns
    ensures |FilterDataModeAsWritten(t, keepError).value.columns["DOXY"]| == |FilterDataMode(t, keepError).value.columns["DOXY"]| == t.n
    ensures FilterDataModeAsWritten(t, keepError).value.columns["DOXY"][i]
         != FilterDataMode(t, keepError).value.columns["DOXY"][i]
  {
    DoxySelected(t, keepError, i);
    AsWrittenSucceedsToo(t, keepError);
    DoxyPassedThrough(t, keepError);
  }

  lemma DelayedValue(t: Table, keepError: bool, params: seq<string>, p: string, i: nat)
    requires TableWellFormed(t) && FourLetters(params)
    requires FilterWith(t, keepError, params).Success? && p in params && i < t.n
    ensures "DATA_MODE" in t.columns && p in t.columns && p + "_ADJUSTED" in t.columns
    ensures var out := FilterWith(t, keepError, params).value.columns;
      p in out && |out[p]| == t.n
    ensures t.columns["DATA_MODE"][i] == Str("D") ==>
      var out := FilterWith(t, keepError, params).value.columns;
      out[p][i] == (if t.columns[p + "_ADJUSTED"][i].NaN? then t.columns[p][i] else t.columns[p + "_ADJUSTED"][i])
  {
    assert p in ParamNeeds(p, keepError) && p + "_ADJUSTED" in ParamNeeds(p, keepError);
    FilteredCells(t, params, keepError, p, i);
    ValueCases(t, p, i);
  }

  lemma AdjustedName()
    ensures "DOXY" + "_ADJUSTED" == "DOXY_ADJUSTED"
  {
  }
}

=== FILE: errors.dfy ===
/** The accessor's failure modes, and the value-or-error wrapper its
    operations return instead of raising. */
module Errors {

  datatype Error =
    /** `InvalidDatasetStructure`: the dataset layout is not the one the
        operation needs, or is not recognised at all. */
    | InvalidDatasetStructure(reason: string)
    /** Grouping or taking the maximum over an empty `index` dimension. */
    | EmptyDataset
    /** `np.unique(...)[0]` over a profile that matched no point. */
    | EmptySelection
    /** A dataset lookup by variable name that raises `KeyError`. */
    | MissingVariable(name: string)
    /** A dataset whose dimensions name a layout its contents do not have. */
    | UnsupportedContent

  datatype Result<T> = Success(value: T) | Failure(error: Error)

  datatype Option<T> = None | Some(value: T)
}

=== FILE: flatten.dfy ===
/** `profile2point`: broadcast every variable to `N_PROF x N_LEVELS`, stack
    the two dimensions into one `index` dimension numbered afresh from 0,
    and mark the header variables as coordinates. */
module Flatten {
  import opened Cells
  import opened Points

  /** The order of the stacked dimensions. It is the order in which the
      array library lists the dataset's dimensions: insertion order gives
      `(N_PROF, N_LEVELS)`, an alphabetical listing `(N_LEVELS, N_PROF)`. */
  datatype StackOrder = ProfileMajor | LevelMajor

  /** `set_coords` on each header variable the dataset holds. */
  function MarkCoords(vars: seq<Var>): (r: seq<Var>)
    ensures |r| == |vars|
    ensures forall k :: 0 <= k < |vars| ==>
      && r[k].name == vars[k].name
      && r[k].kind == vars[k].kind
      && (r[k].isCoord <==> vars[k].isCoord || vars[k].name in HeaderNames)
  {
    seq(|vars|, k requires 0 <= k < |vars| =>
      vars[k].(isCoord := vars[k].isCoord || vars[k].name in HeaderNames))
  }

  /** The value a column takes at one level once broadcast. */
  function CellAt(c: Column, j: nat): Cell
    requires c.PerLevel? ==> j < |c.levels|
  {
    match c
    case PerProfile(x) => x
    case PerLevel(levels) => levels[j]
  }

  lemma DivBelow(k: nat, a: nat, b: nat)
    requires k < a * b
    ensures b > 0 && k / b < a && k % b < b
  {
  }

  lemma SmallMultiple(d: int, n: int)
    requires n > 0 && -n < d * n < n
    ensures d == 0
  {
  }

  /** Profile and level of the `k`-th stacked point. */
  function Position(order: StackOrder, nProf: nat, nLevels: nat, k: nat): (r: (nat, nat))
    requires k < nProf * nLevels
    ensures r.0 < nProf && r.1 < nLevels
  {
    DivBelow(k, nProf, nLevels);
    DivBelow(k, nLevels, nProf);
    match order
    case ProfileMajor => (k / nLevels, k % nLevels)
    case LevelMajor => (k % nProf, k / nProf)
  }

  function StackedPoint(pf: ProfileSet, order: StackOrder, k: nat): (p: Point)
    requires ProfileWellFormed(pf)
    requires k < |pf.profiles| * pf.nLevels
    ensures |p.cells| == |pf.vars|
  {
    var (i, j) := Position(order, |pf.profiles|, pf.nLevels, k);
    var pr := pf.profiles[i];
    assert pr in pf.profiles;
    Point(k, pr.wmo, pr.cyc,
      seq(|pf.vars|, v requires 0 <= v < |pf.vars| =>
        assert pr.columns[v] in pr.columns;
        CellAt(pr.columns[v], j)))
  }

  /** `profile2point` on a profile dataset. */
  function Profile2Point(pf: ProfileSet, order: StackOrder): (r: PointSet)
    requires ProfileWellFormed(pf)
    ensures WellFormed(r)
    ensures |r.points| == |pf.profiles| * pf.nLevels
    ensures forall k :: 0 <= k < |r.points| ==> r.points[k].index == k
    ensures r.vars == MarkCoords(pf.vars)
  {
    var n := |pf.profiles| * pf.nLevels;
    PointSet(MarkCoords(pf.vars), seq(n, k requires 0 <= k < n => StackedPoint(pf, order, k)))
  }

  lemma StackedAt(pf: ProfileSet, order: StackOrder, k: nat)
    requires ProfileWellFormed(pf)
    requires k < |pf.profiles| * pf.nLevels
    ensures Profile2Point(pf, order).points[k] == StackedPoint(pf, order, k)
  {
  }

  lemma DivModOf(i: nat, j: nat, n: nat)
    requires j < n
    ensures (i * n + j) / n == i && (i * n + j) % n == j
  {
    var q := (i * n + j) / n;
    var r := (i * n + j) % n;
    assert (q - i) * n == j - r;
    SmallMultiple(q - i, n);
  }

  lemma IndexBelow(i: nat, j: nat, n: nat, m: nat)
    requires i < m && j < n
    ensures i * n + j < m * n
  {
    assert i * n + j < (i + 1) * n;
    assert (i + 1) * n <= m * n;
  }

  /** The stack position of grid cell `(i, j)`. */
  function Slot(order: StackOrder, nProf: nat, nLevels: nat, i: nat, j: nat): (k: nat)
    requires i < nProf && j < nLevels
    ensures k < nProf * nLevels
    ensures Position(order, nProf, nLevels, k) == (i, j)
  {
    match order
    case ProfileMajor =>
      IndexBelow(i, j, nLevels, nProf);
      DivModOf(i, j, nLevels);
      i * nLevels + j
    case LevelMajor =>
      IndexBelow(j, i, nProf, nLevels);
      assert nLevels * nProf == nProf * nLevels;
      DivModOf(j, i, nProf);
      j * nProf + i
  }

  /** Cell `(i, j)` of the grid becomes point `i * N_LEVELS + j` when the
      profile dimension is stacked first, point `j * N_PROF + i` otherwise,
      and that point carries the profile's float id and cycle and, for each
      variable, its level-`j` value, per-profile values being repeated on
      every level. */
  lemma Placement(pf: ProfileSet, order: StackOrder, i: nat, j: nat)
    requires ProfileWellFormed(pf)
    requires i < |pf.profiles| && j < pf.nLevels
    ensures var k := if order == ProfileMajor then i * pf.nLevels + j else j * |pf.profiles| + i;
      var r := Profile2Point(pf, order);
      var pr := pf.profiles[i];
      && k < |r.points|
      && r.points[k].wmo == pr.wmo
      && r.points[k].cyc == pr.cyc
      && forall v :: 0 <= v < |pf.vars| ==>
           pr.columns[v] in pr.columns && r.points[k].cells[v] == CellAt(pr.columns[v], j)
  {
    var k := Slot(order, |pf.profiles|, pf.nLevels, i, j);
    assert pf.profiles[i] in pf.profiles;
    assert Profile2Point(pf, order).points[k] == StackedPoint(pf, order, k);
  }
}

=== FILE: grouping.dfy ===
/** Grouping a column of profile uids: `np.unique` (the sorted distinct
    values) and the per-uid point counts that `groupby(...).sum()` of a
    column of ones produces. */
module Grouping {

  predicate StrictlyIncreasing(s: seq<int>)
  {
    forall i, j :: 0 <= i < j < |s| ==> s[i] < s[j]
  }

  /** Insertion of one value into a strictly increasing sequence. */
  function Insert(s: seq<int>, x: int): (r: seq<int>)
    requires StrictlyIncreasing(s)
    ensures StrictlyIncreasing(r)
    ensures forall y :: y in r <==> y in s || y == x
  {
    if |s| == 0 then [x]
    else if x < s[0] then [x] + s
    else if x == s[0] then s
    else
      var t := Insert(s[1..], x);
      assert forall y :: y in s <==> y == s[0] || y in s[1..];
      assert forall i :: 0 <= i < |t| ==> s[0] < t[i] by {
        forall i | 0 <= i < |t|
          ensures s[0] < t[i]
        {
          assert t[i] in t;
        }
      }
      [s[0]] + t
  }

  /** `np.unique`: the distinct values, ascending. */
  function Unique(s: seq<int>): (r: seq<int>)
    ensures StrictlyIncreasing(r)
    ensures forall y :: y in r <==> y in s
  {
    if |s| == 0 then []
    else
      var t := Unique(s[..|s| - 1]);
      assert forall y :: y in s <==> y in s[..|s| - 1] || y == s[|s| - 1];
      Insert(t, s[|s| - 1])
  }

  /** A strictly increasing sequence is determined by its elements, so
      `Unique` is the only sorted duplicate-free listing of a column. */
  lemma {:induction false} IncreasingDeterminedByElements(a: seq<int>, b: seq<int>)
    requires StrictlyIncreasing(a) && StrictlyIncreasing(b)
    requires forall y :: y in a <==> y in b
    ensures a == b
    decreases |a|
  {
    assert |a| > 0 ==> a[0] in a && a[0] in b;
    assert |b| > 0 ==> b[0] in b && b[0] in a;
    if |a| > 0 && |b| > 0 {
      assert a[0] == b[0] by {
        assert a[0] in b && b[0] in a;
      }
      forall y
        ensures y in a[1..] <==> y in b[1..]
      {
        if y in a[1..] {
          assert y in b;
          assert y > a[0];
        }
        if y in b[1..] {
          assert y in a;
          assert y > b[0];
        }
      }
      IncreasingDeterminedByElements(a[1..], b[1..]);
      assert a == [a[0]] + a[1..];
      assert b == [b[0]] + b[1..];
    }
  }

  /** Number of occurrences of `x`: the size of its group. */
  function Count(s: seq<int>, x: int): (n: nat)
    ensures n <= |s|
    ensures n > 0 <==> x in s
  {
    if |s| == 0 then 0
    else
      var n := Count(s[1..], x);
      assert x in s <==> x == s[0] || x in s[1..];
      (if s[0] == x then 1 else 0) + n
  }

  /** Total size of the groups of the given keys. */
  function SumCounts(s: seq<int>, keys: seq<int>): nat
  {
    if |keys| == 0 then 0 else SumCounts(s, keys[..|keys| - 1]) + Count(s, keys[|keys| - 1])
  }

  /** `that.max()`: the size of the largest group among the keys. */
  function MaxCount(s: seq<int>, keys: seq<int>): (m: nat)
    ensures forall k :: k in keys ==> Count(s, k) <= m
    ensures |keys| > 0 ==> exists k :: k in keys && Count(s, k) == m
  {
    if |keys| == 0 then 0
    else
      var k := keys[|keys| - 1];
      var m := MaxCount(s, keys[..|keys| - 1]);
      assert forall y :: y in keys <==> y in keys[..|keys| - 1] || y == k;
      if Count(s, k) > m then Count(s, k) else m
  }

  /** The keys' indicator sum for one value: 1 when it is a key, 0 otherwise. */
  function Hits(x: int, keys: seq<int>): nat
  {
    if |keys| == 0 then 0 else Hits(x, keys[..|keys| - 1]) + (if keys[|keys| - 1] == x then 1 else 0)
  }

  lemma {:induction false} HitsOfDistinct(x: int, keys: seq<int>)
    requires StrictlyIncreasing(keys)
    ensures Hits(x, keys) == (if x in keys then 1 else 0)
    decreases |keys|
  {
    if |keys| > 0 {
      var init := keys[..|keys| - 1];
      HitsOfDistinct(x, init);
      assert forall y :: y in keys <==> y in init || y == keys[|keys| - 1];
      if x == keys[|keys| - 1] {
        assert x !in init;
      }
    }
  }

  /** Removing the head of the column removes its hit from every group. */
  lemma {:induction false} SumCountsTail(s: seq<int>, keys: seq<int>)
    requires |s| > 0
    ensures SumCounts(s, keys) == Hits(s[0], keys) + SumCounts(s[1..], keys)
    decreases |keys|
  {
    if |keys| > 0 {
      SumCountsTail(s, keys[..|keys| - 1]);
    }
  }

  /** The groups of the distinct keys partition the column. */
  lemma {:induction false} CountsPartition(s: seq<int>, keys: seq<int>)
    requires StrictlyIncreasing(keys)
    requires forall y :: y in s ==> y in keys
    ensures SumCounts(s, keys) == |s|
    decreases |s|
  {
    if |s| == 0 {
      ZeroCounts(keys);
    } else {
      SumCountsTail(s, keys);
      HitsOfDistinct(s[0], keys);
      assert forall y :: y in s[1..] ==> y in s;
      CountsPartition(s[1..], keys);
    }
  }

  lemma {:induction false} ZeroCounts(keys: seq<int>)
    ensures SumCounts([], keys) == 0
    decreases |keys|
  {
    if |keys| > 0 {
      ZeroCounts(keys[..|keys| - 1]);
    }
  }

  lemma MulSucc(n: nat, m: nat)
    ensures n * m + m == (n + 1) * m
  {
  }

  lemma {:induction false} SumCountsBound(s: seq<int>, keys: seq<int>, m: nat)
    requires forall k :: k in keys ==> Count(s, k) <= m
    ensures SumCounts(s, keys) <= |keys| * m
    decreases |keys|
  {
    if |keys| > 0 {
      var init := keys[..|keys| - 1];
      assert forall k :: k in init ==> k in keys;
      SumCountsBound(s, init, m);
      MulSucc(|init|, m);
    }
  }

  /** Every value lies in a group of at most the largest group's size, so
      `N_PROF * N_LEVELS` cells hold all points: the assertion of
      `point2profile` never fails. */
  lemma GridHoldsColumn(s: seq<int>)
    ensures |Unique(s)| * MaxCount(s, Unique(s)) >= |s|
  {
    var keys := Unique(s);
    CountsPartition(s, keys);
    SumCountsBound(s, keys, MaxCount(s, keys));
  }
}

=== FILE: points.dfy ===
/** The two layouts of an Argo dataset: a flat collection of points along
    the `index` dimension, and a padded `N_PROF x N_LEVELS` collection of
    profiles. Variables are listed once per dataset; each point or profile
    holds one entry per variable, in the same order. */
module Points {
  import opened Cells
  import opened Uid

  /** The variables `point2profile` fills with a per-profile value. */
  const HeaderNames: seq<string> := ["LATITUDE", "LONGITUDE", "TIME", "JULD"]

  /** A variable along `index` (or along `N_PROF`/`N_LEVELS`): its name, its
      dtype kind and whether the dataset holds it as a coordinate. */
  datatype Var = Var(name: string, kind: Kind, isCoord: bool)

  /** One measurement point. `PLATFORM_NUMBER` and `CYCLE_NUMBER` are held
      apart from the other variables because the profile uid is built from them. */
  datatype Point = Point(index: int, wmo: int, cyc: int, cells: seq<Cell>)

  datatype PointSet = PointSet(vars: seq<Var>, points: seq<Point>)

  predicate WellFormed(ps: PointSet)
  {
    forall p :: p in ps.points ==> |p.cells| == |ps.vars|
  }

  /** A variable of a profile: one value for the whole profile, or one value
      per level. */
  datatype Column = PerProfile(value: Cell) | PerLevel(levels: seq<Cell>)

  datatype Profile = Profile(wmo: int, cyc: int, columns: seq<Column>)

  datatype ProfileSet = ProfileSet(vars: seq<Var>, nLevels: nat, profiles: seq<Profile>)

  predicate ProfileWellFormed(pf: ProfileSet)
  {
    forall i :: 0 <= i < |pf.profiles| ==>
      && |pf.profiles[i].columns| == |pf.vars|
      && forall k :: 0 <= k < |pf.vars| && pf.profiles[i].columns[k].PerLevel? ==>
           |pf.profiles[i].columns[k].levels| == pf.nLevels
  }

  /** `dummy_argo_uid` of a point. */
  function UidOf(p: Point): int
  {
    Encode(p.wmo, p.cyc)
  }

  function Uids(pts: seq<Point>): (r: seq<int>)
    ensures |r| == |pts|
    ensures forall i :: 0 <= i < |pts| ==> r[i] == UidOf(pts[i])
  {
    if |pts| == 0 then [] else [UidOf(pts[0])] + Uids(pts[1..])
  }

  /** `ds.where(PLATFORM_NUMBER == wmo).where(CYCLE_NUMBER == cyc)`: the
      points of one float cycle, in index order. */
  function Members(pts: seq<Point>, wmo: int, cyc: int): (r: seq<Point>)
    ensures |r| <= |pts|
    ensures forall p :: p in r ==> p in pts && p.wmo == wmo && p.cyc == cyc
    ensures forall p :: p in pts && p.wmo == wmo && p.cyc == cyc ==> p in r
  {
    if |pts| == 0 then []
    else
      var rest := Members(pts[1..], wmo, cyc);
      assert forall p :: p in pts <==> p == pts[0] || p in pts[1..];
      if pts[0].wmo == wmo && pts[0].cyc == cyc then [pts[0]] + rest else rest
  }
}

=== FILE: qc.dfy ===
/** The QC branch of `cast_types`: a quality-control variable holding flag
    strings is cleaned of its blank and `nan` entries, which become the flag
    `0`, and then cast to integers. An array of strings is modelled as a
    sequence of strings together with the `w` of its numpy dtype `<U w`,
    which decides the cleaning steps. */
module QcFlags {
  import opened Errors
  import opened Text

  /** The variables the branch applies to: `"QC" in v and "PROFILE" not in v`. */
  predicate IsQcName(name: string)
  {
    Contains(name, "QC") && !Contains(name, "PROFILE")
  }

  /** The `w` of the dtype `<U w` that `astype(str)` gives an object array
      of these strings: the longest length, and at least 1. */
  function Width(vals: seq<string>): (w: nat)
    ensures w >= 1
    ensures forall i :: 0 <= i < |vals| ==> |vals[i]| <= w
    ensures w == 1 || exists i :: 0 <= i < |vals| && |vals[i]| == w
  {
    if |vals| == 0 then 1
    else
      var w := Width(vals[..|vals| - 1]);
      var last := |vals[|vals| - 1]|;
      if last > w then last else w
  }

  /** `xr.where(da == from, to, da)`. */
  function Replace(vals: seq<string>, from: string, to: string): seq<string>
  {
    seq(|vals|, i requires 0 <= i < |vals| => if vals[i] == from then to else vals[i])
  }

  /** `astype('U1')`: every string cut to its first character. */
  function CutToOne(vals: seq<string>): seq<string>
  {
    seq(|vals|, i requires 0 <= i < |vals| => if |vals[i]| <= 1 then vals[i] else vals[i][..1])
  }

  /** The two cleaning steps on a `<U w` array: a `<U3` array has its
      `'   '` and `'nan'` entries replaced by `'0'` and is cut to `<U1`; a
      `<U1` array (also the one just cut) has its `' '` and `'n'` entries
      replaced by `'0'`. Arrays of any other width are left as they are. */
  function Normalise(w: nat, vals: seq<string>): (r: seq<string>)
    ensures |r| == |vals|
  {
    var cut := if w == 3 then CutToOne(Replace(Replace(vals, "   ", "0"), "nan", "0")) else vals;
    if w == 3 || w == 1 then Replace(Replace(cut, " ", "0"), "n", "0") else cut
  }

  /** The `w` of the cleaned array's dtype: a `<U3` array comes out `<U1`. */
  function CleanedWidth(w: nat): nat
  {
    if w == 3 then 1 else w
  }

  /** What the cleaning does to one entry of an array of width `w`, stated
      on its own: in a width-3 array only the first character survives, and
      a leading blank or `n` turns the entry into `'0'`; in a width-1 array
      a blank or `n` becomes `'0'`. */
  function CleanFlag(w: nat, s: string): string
  {
    if w == 3 then
      if |s| == 0 then "" else if s[0] == ' ' || s[0] == 'n' then "0" else [s[0]]
    else if w == 1 then
      if s == " " || s == "n" then "0" else s
    else s
  }

  /** The width-1 step on one entry. */
  lemma BlankStepAt(vals: seq<string>, i: nat)
    requires i < |vals|
    ensures Replace(Replace(vals, " ", "0"), "n", "0")[i] == CleanFlag(1, vals[i])
  {
  }

  /** The width-3 step on one entry, before the width-1 step. */
  lemma CutStepAt(vals: seq<string>, i: nat)
    requires i < |vals|
    ensures var c := CutToOne(Replace(Replace(vals, "   ", "0"), "nan", "0"))[i];
      CleanFlag(1, c) == CleanFlag(3, vals[i])
  {
    var s := vals[i];
    var c := CutToOne(Replace(Replace(vals, "   ", "0"), "nan", "0"))[i];
    if s == "   " || s == "nan" {
      assert c == "0";
    } else if |s| > 1 {
      assert c == s[..1] == [s[0]];
    } else if |s| == 1 {
      assert c == s == [s[0]];
    } else {
      assert c == s;
    }
  }

  /** Entry `i` after the array-wide steps. */
  lemma CleanAt(w: nat, vals: seq<string>, i: nat)
    requires i < |vals|
    ensures Normalise(w, vals)[i] == CleanFlag(w, vals[i])
  {
    if w == 3 {
      var cut := CutToOne(Replace(Replace(vals, "   ", "0"), "nan", "0"));
      BlankStepAt(cut, i);
      CutStepAt(vals, i);
    } else if w == 1 {
      BlankStepAt(vals, i);
    }
  }

  /** The array-wide steps act entry by entry as `CleanFlag` says. */
  lemma NormaliseIsElementwise(w: nat, vals: seq<string>)
    ensures forall i :: 0 <= i < |vals| ==> Normalise(w, vals)[i] == CleanFlag(w, vals[i])
  {
    forall i | 0 <= i < |vals|
      ensures Normalise(w, vals)[i] == CleanFlag(w, vals[i])
    {
      CleanAt(w, vals, i);
    }
  }

  /** After cleaning, an array holds no blank or `n` entry when it had
      width 1 or 3, and only one-character (or empty) entries when it had
      width 3. */
  lemma CleanedEntries(w: nat, vals: seq<string>)
    ensures forall i :: 0 <= i < |vals| ==>
      && ((w == 1 || w == 3) ==> Normalise(w, vals)[i] != " " && Normalise(w, vals)[i] != "n")
      && (w == 3 ==> |Normalise(w, vals)[i]| <= CleanedWidth(w))
  {
    NormaliseIsElementwise(w, vals);
  }

  /** Cleaning twice is cleaning once: `cast_types` may run again on its own
      output (as `filter_data_mode` does), whose dtype is the cleaned width,
      without changing the flags. */
  lemma NormaliseIdempotent(w: nat, vals: seq<string>)
    ensures Normalise(CleanedWidth(w), Normalise(w, vals)) == Normalise(w, vals)
  {
    var r := Normalise(w, vals);
    NormaliseIsElementwise(w, vals);
    NormaliseIsElementwise(CleanedWidth(w), r);
    forall i | 0 <= i < |r|
      ensures Normalise(CleanedWidth(w), r)[i] == r[i]
    {
      if w == 3 {
        var s := vals[i];
        assert r[i] == CleanFlag(3, s);
        assert |s| > 0 && s[0] != ' ' && s[0] != 'n' ==> r[i] == [s[0]] && r[i] != " " && r[i] != "n";
      }
    }
  }

  /** A missing-value marker becomes the flag `'0'`: `'   '` and `'nan'` in
      a width-3 array, `' '` and `'n'` in a width-1 array. */
  lemma MarkerBecomesZero(w: nat, vals: seq<string>, i: nat)
    requires i < |vals|
    requires (w == 3 && (vals[i] == "   " || vals[i] == "nan"))
          || (w == 1 && (vals[i] == " " || vals[i] == "n"))
    ensures Normalise(w, vals)[i] == "0"
  {
    CleanAt(w, vals, i);
    if w == 3 {
      assert vals[i][0] == ' ' || vals[i][0] == 'n';
    }
  }

  /** A one-digit flag survives cleaning unchanged, whatever the width. */
  lemma DigitFlagKept(w: nat, vals: seq<string>, i: nat)
    requires i < |vals| && |vals[i]| == 1 && IsDigit(vals[i][0])
    ensures Normalise(w, vals)[i] == vals[i]
  {
    CleanAt(w, vals, i);
    assert vals[i] == [vals[i][0]];
  }

  // Python's `int()` on a string, which is what casting a unicode array
  // to `int` applies to every entry.

  /** The ASCII characters `str.strip` removes: blank, tab, line feed,
      carriage return, vertical tab, form feed and the four separators
      U+001C to U+001F. */
  predicate IsSpace(c: char)
  {
    c == ' ' || c == '\t' || c == '\n' || c == '\r' || c == '\U{000B}' || c == '\U{000C}'
    || ('\U{001C}' <= c <= '\U{001F}')
  }

  predicate IsDigit(c: char)
  {
    '0' <= c <= '9'
  }

  function DigitValue(c: char): nat
    requires IsDigit(c)
  {
    (c as int) - ('0' as int)
  }

  function TrimStart(s: string): (r: string)
    ensures |r| <= |s|
    ensures |r| > 0 ==> !IsSpace(r[0])
  {
    if |s| > 0 && IsSpace(s[0]) then TrimStart(s[1..]) else s
  }

  function TrimEnd(s: string): (r: string)
    ensures |r| <= |s|
    ensures |r| > 0 ==> !IsSpace(r[|r| - 1])
  {
    if |s| > 0 && IsSpace(s[|s| - 1]) then TrimEnd(s[..|s| - 1]) else s
  }

  /** A decimal literal as `int()` reads it: digits, with single underscores
      allowed between two digits. */
  predicate Grouped(s: string)
  {
    && |s| > 0
    && IsDigit(s[0])
    && IsDigit(s[|s| - 1])
    && (forall i :: 0 <= i < |s| ==> IsDigit(s[i]) || s[i] == '_')
    && (forall i :: 0 < i < |s| - 1 && s[i] == '_' ==> IsDigit(s[i - 1]) && IsDigit(s[i + 1]))
  }

  function DropUnderscores(s: string): (r: string)
    ensures forall c :: c in r ==> c in s && c != '_'
  {
    if |s| == 0 then ""
    else (if s[0] == '_' then "" else [s[0]]) + DropUnderscores(s[1..])
  }

  /** The value of a string of decimal digits, most significant first. */
  function DigitsValue(s: string): nat
    requires forall c :: c in s ==> IsDigit(c)
  {
    if |s| == 0 then 0
    else
      assert forall c :: c in s[..|s| - 1] ==> c in s;
      10 * DigitsValue(s[..|s| - 1]) + DigitValue(s[|s| - 1])
  }

  function ParseNat(s: string): Option<nat>
  {
    if Grouped(s) then
      assert forall c :: c in DropUnderscores(s) ==> IsDigit(c);
      Some(DigitsValue(DropUnderscores(s)))
    else None
  }

  /** `int(s)`: surrounding whitespace, an optional sign, then a decimal
      literal; `None` where Python raises `ValueError`. */
  function ParseInt(s: string): Option<int>
  {
    var t := TrimEnd(TrimStart(s));
    var signed := |t| > 0 && (t[0] == '-' || t[0] == '+');
    var digits := if signed then t[1..] else t;
    match ParseNat(digits)
    case None => None
    case Some(n) =>
      var v: int := if signed && t[0] == '-' then -(n as int) else n;
      Some(v)
  }

  /** `str(n)` for an integer: its decimal digits, with a minus sign when
      negative. */
  function ShowNat(n: nat): (r: string)
    ensures |r| > 0 && forall c :: c in r ==> IsDigit(c)
  {
    if n < 10 then ["0123456789"[n]]
    else ShowNat(n / 10) + ["0123456789"[n % 10]]
  }

  function Show(n: int): string
  {
    if n < 0 then "-" + ShowNat(-n) else ShowNat(n)
  }

  lemma {:induction false} DigitsValueShow(n: nat)
    ensures DigitsValue(ShowNat(n)) == n
    decreases n
  {
    var s := ShowNat(n);
    if n >= 10 {
      DigitsValueShow(n / 10);
      assert s[..|s| - 1] == ShowNat(n / 10);
    }
  }

  lemma {:induction false} NoUnderscores(s: string)
    requires forall c :: c in s ==> IsDigit(c)
    ensures DropUnderscores(s) == s
    decreases |s|
  {
    if |s| > 0 {
      assert forall c :: c in s[1..] ==> c in s;
      assert s[0] in s;
      NoUnderscores(s[1..]);
      assert s == [s[0]] + s[1..];
    }
  }

  lemma ParseShowNat(n: nat)
    ensures ParseNat(ShowNat(n)) == Some(n)
  {
    var s := ShowNat(n);
    assert forall i :: 0 <= i < |s| ==> s[i] in s;
    NoUnderscores(s);
    DigitsValueShow(n);
  }

  /** `int(str(n)) == n`: reading back a printed integer gives it back. */
  lemma ParseShow(n: int)
    ensures ParseInt(Show(n)) == Some(n)
  {
    var s := Show(n);
    var d := ShowNat(if n < 0 then -n else n);
    assert d[0] in d && d[|d| - 1] in d;
    assert s[0] == '-' || IsDigit(s[0]);
    assert s[|s| - 1] == d[|d| - 1];
    assert TrimStart(s) == s;
    assert TrimEnd(s) == s;
    ParseShowNat(if n < 0 then -n else n);
    if n < 0 {
      assert s[1..] == d;
    }
  }

  /** A digit behind an ASCII separator, which `str.strip` removes, reads
      as its value: `int('\x1f1') == 1`. */
  lemma SeparatorStripped(c: char, d: char)
    requires '\U{001C}' <= c <= '\U{001F}' && IsDigit(d)
    ensures ParseInt([c, d]) == Some(DigitValue(d))
  {
    var s := [c, d];
    assert TrimStart(s) == TrimStart([d]) == [d] by {
      assert s[1..] == [d];
    }
    assert TrimEnd([d]) == [d];
    ParseDigit(d);
  }

  /** A flag digit reads as its value. */
  lemma ParseDigit(c: char)
    requires IsDigit(c)
    ensures ParseInt([c]) == Some(DigitValue(c))
  {
    var s := [c];
    assert TrimStart(s) == s && TrimEnd(s) == s;
    assert s[1..] == [] && s[..0] == [];
    assert DropUnderscores(s) == s;
    assert Grouped(s);
    assert DigitsValue(s) == DigitValue(c);
    assert ParseNat(s) == Some(DigitValue(c));
  }

  /** Whether an integer fits numpy's default `int`, a signed 64-bit one. */
  predicate IsInt64(x: int)
  {
    -0x8000_0000_0000_0000 <= x < 0x8000_0000_0000_0000
  }

  /** An entry `astype(int)` accepts: it reads as an integer that fits in
      64 bits; a larger one raises `OverflowError`. */
  predicate Castable(s: string)
  {
    ParseInt(s).Some? && IsInt64(ParseInt(s).value)
  }

  /** `astype(int)` on the whole array: every entry must read as a 64-bit
      integer, or the cast fails as a whole. */
  function CastInts(vals: seq<string>): (r: Option<seq<int>>)
    ensures r.Some? <==> forall i :: 0 <= i < |vals| ==> Castable(vals[i])
    ensures r.Some? ==> |r.value| == |vals|
    ensures r.Some? ==> forall i :: 0 <= i < |vals| ==> r.value[i] == ParseInt(vals[i]).value
  {
    if |vals| == 0 then Some([])
    else
      match CastInts(vals[1..])
      case None => None
      case Some(rest) =>
        match ParseInt(vals[0])
        case None => None
        case Some(x) => if IsInt64(x) then Some([x] + rest) else None
  }

  /** A printed integer beyond 64 bits reads as an integer, yet the cast
      refuses it. */
  lemma OverflowRefused()
    ensures ParseInt(Show(0x1_0000_0000_0000_0000)).Some?
    ensures CastInts([Show(0x1_0000_0000_0000_0000)]).None?
  {
    ParseShow(0x1_0000_0000_0000_0000);
  }

  /** A QC variable as it reaches the branch: an object array, which
      `astype(str)` turns into a `<U w` array with `w` its longest entry, or
      a unicode array whose declared `<U w` may exceed every entry. */
  datatype QcArray = Objects(vals: seq<string>) | Unicode(width: nat, vals: seq<string>)

  /** The `w` of the dtype the cleaning steps test. */
  function DtypeWidth(a: QcArray): nat
  {
    match a
    case Objects(vals) => Width(vals)
    case Unicode(w, _) => w
  }

  /** A `<U w` array holds no entry longer than `w`. */
  predicate Fits(a: QcArray)
  {
    forall i :: 0 <= i < |a.vals| ==> |a.vals[i]| <= DtypeWidth(a)
  }

  /** A QC variable after `cast_types`: integer flags, or, when the final
      cast fails, the cleaned strings, which the failed cast leaves in place. */
  datatype QcColumn = Flags(flags: seq<int>) | Strings(strings: seq<string>)

  function NormaliseQc(a: QcArray): (r: QcColumn)
    ensures r.Flags? <==> forall i :: 0 <= i < |a.vals| ==> Castable(Normalise(DtypeWidth(a), a.vals)[i])
    ensures r.Flags? ==> |r.flags| == |a.vals|
    ensures r.Flags? ==> forall i :: 0 <= i < |a.vals| ==>
      r.flags[i] == ParseInt(Normalise(DtypeWidth(a), a.vals)[i]).value
    ensures r.Strings? ==> r.strings == Normalise(DtypeWidth(a), a.vals)
  {
    var cleaned := Normalise(DtypeWidth(a), a.vals);
    match CastInts(cleaned)
    case Some(xs) => Flags(xs)
    case None => Strings(cleaned)
  }

  /** Arrays of one-digit flags, possibly with missing-value markers, come
      out as integer flags: each digit its value, each marker `0`. */
  lemma FlagArray(a: QcArray)
    requires forall i :: 0 <= i < |a.vals| ==>
      (|a.vals[i]| == 1 && IsDigit(a.vals[i][0])) || a.vals[i] in {" ", "n", "   ", "nan"}
    requires Fits(a) && (DtypeWidth(a) == 1 || DtypeWidth(a) == 3)
    ensures NormaliseQc(a).Flags?
    ensures forall i :: 0 <= i < |a.vals| ==>
      NormaliseQc(a).flags[i] == (if |a.vals[i]| == 1 && IsDigit(a.vals[i][0]) then DigitValue(a.vals[i][0]) else 0)
  {
    var w := DtypeWidth(a);
    var vals := a.vals;
    NormaliseIsElementwise(w, vals);
    forall i | 0 <= i < |vals|
      ensures ParseInt(CleanFlag(w, vals[i])) ==
        Some(if |vals[i]| == 1 && IsDigit(vals[i][0]) then DigitValue(vals[i][0]) else 0)
      ensures Castable(CleanFlag(w, vals[i]))
    {
      FlagEntry(w, vals[i]);
    }
  }

  /** One entry of such an array: a digit or a marker, read after cleaning. */
  lemma FlagEntry(w: nat, s: string)
    requires (|s| == 1 && IsDigit(s[0])) || s in {" ", "n", "   ", "nan"}
    requires (w == 1 || w == 3) && |s| <= w
    ensures ParseInt(CleanFlag(w, s)) == Some(if |s| == 1 && IsDigit(s[0]) then DigitValue(s[0]) else 0)
    ensures Castable(CleanFlag(w, s))
  {
    if |s| == 1 && IsDigit(s[0]) {
      assert CleanFlag(w, s) == [s[0]];
      ParseDigit(s[0]);
    } else {
      assert CleanFlag(w, s) == ['0'];
      ParseDigit('0');
    }
  }

  /** The declared width decides the cleaning: the same two entries held
      in a `<U3` array become the flags 1 and 0, while as an object array
      (cast to `<U2`) they are left uncleaned and the blank-led entry
      blocks the integer cast. */
  lemma DeclaredWidthDecides()
    ensures NormaliseQc(Unicode(3, ["1", " n"])) == Flags([1, 0])
    ensures NormaliseQc(Objects(["1", " n"])).Strings?
  {
    var vals := ["1", " n"];
    WidthThreeCleaned(vals);
    DigitsCast('1', '0');
    ObjectsLeftUncleaned(vals);
    BlankLedRefused();
    assert !Castable(Normalise(DtypeWidth(Objects(vals)), vals)[1]);
  }

  /** Two flag digits cast to their values. */
  lemma DigitsCast(a: char, b: char)
    requires IsDigit(a) && IsDigit(b)
    ensures CastInts([[a], [b]]) == Some([DigitValue(a), DigitValue(b)])
  {
    var vals := [[a], [b]];
    ParseDigit(a);
    ParseDigit(b);
    assert Castable(vals[0]) && Castable(vals[1]);
    assert forall i :: 0 <= i < |vals| ==> Castable(vals[i]);
    var r := CastInts(vals);
    assert |r.value| == 2;
    assert r.value == [DigitValue(a), DigitValue(b)];
  }

  lemma WidthThreeCleaned(vals: seq<string>)
    requires vals == ["1", " n"]
    ensures Normalise(3, vals) == ["1", "0"]
  {
    CleanAt(3, vals, 0);
    CleanAt(3, vals, 1);
  }

  lemma ObjectsLeftUncleaned(vals: seq<string>)
    requires vals == ["1", " n"]
    ensures DtypeWidth(Objects(vals)) == 2
    ensures Normalise(2, vals) == vals
  {
    assert vals[..1] == ["1"];
  }

  lemma BlankLedRefused()
    ensures !Castable(" n")
  {
    assert TrimStart(" n") == TrimStart("n") == "n";
    assert TrimEnd("n") == "n";
    assert !Grouped("n");
  }

  /** In a width-3 array every entry is cut to its first character before
      the cast, so an entry such as `' 1 '` becomes the flag `0`. */
  lemma LeadingBlankIsZero(vals: seq<string>, i: nat)
    requires i < |vals| && |vals[i]| > 0 && vals[i][0] == ' '
    ensures Normalise(3, vals)[i] == "0"
  {
    CleanAt(3, vals, i);
  }

  /** A string lacks any word whose first letter it does not hold. */
  lemma LacksFirstLetter(s: string, sub: string)
    requires |sub| > 0 && sub[0] !in s
    ensures !Contains(s, sub)
  {
    forall i | 0 <= i <= |s|
      ensures !OccursAt(s, sub, i)
    {
      if i + |sub| <= |s| {
        assert s[i..i + |sub|][0] == s[i] && s[i] in s;
      }
    }
  }

  /** Which variable names the branch applies to. */
  lemma QcNames()
    ensures IsQcName("DOXY_QC")
    ensures IsQcName("DOXY_ADJUSTED_QC")
    ensures !IsQcName("PROFILE_DOXY_QC")
    ensures !IsQcName("DOXY")
  {
    assert OccursAt("DOXY_QC", "QC", 5);
    assert OccursAt("DOXY_ADJUSTED_QC", "QC", 14);
    assert OccursAt("PROFILE_DOXY_QC", "PROFILE", 0);
    LacksFirstLetter("DOXY_QC", "PROFILE");
    LacksFirstLetter("DOXY_ADJUSTED_QC", "PROFILE");
    LacksFirstLetter("DOXY", "QC");
  }
}

=== FILE: reshape.dfy ===
/** `point2profile`: group the points by profile uid, list the profiles by
    ascending uid and write each profile's measurements into one row of a
    padded `N_PROF x N_LEVELS` grid. */
module Reshape {
  import opened Errors
  import opened Cells
  import opened Uid
  import opened Grouping
  import opened Points

  /** A per-profile variable that is a data variable, the only kind the
      header loop writes (it tests membership in `new_ds.data_vars`). */
  predicate IsHeader(v: Var)
  {
    !v.isCoord && v.name in HeaderNames
  }

  predicate NeedsHeader(vars: seq<Var>)
  {
    exists k | 0 <= k < |vars| :: IsHeader(vars[k])
  }

  /** `np.unique(ds['dummy_argo_uid'])`: one key per profile, ascending. */
  function Keys(ps: PointSet): seq<int>
  {
    Unique(Uids(ps.points))
  }

  /** `N_LEVELS`: the size of the largest uid group. */
  function NLevels(ps: PointSet): nat
  {
    MaxCount(Uids(ps.points), Keys(ps))
  }

  /** The points `point2profile` selects for a profile key: those whose float
      id and cycle equal the DECODED key. */
  function KeyMembers(ps: PointSet, u: int): seq<Point>
  {
    Members(ps.points, Decode(u).0, Decode(u).1)
  }

  lemma {:induction false} MembersWithinGroup(pts: seq<Point>, u: int)
    ensures |Members(pts, Decode(u).0, Decode(u).1)| <= Count(Uids(pts), u)
    decreases |pts|
  {
    if |pts| > 0 {
      MembersWithinGroup(pts[1..], u);
      assert Uids(pts)[1..] == Uids(pts[1..]);
    }
  }

  /** A profile's selected points never outnumber `N_LEVELS`, so the
      row assignment of `point2profile` always fits. */
  lemma MembersFit(ps: PointSet, u: int)
    ensures |KeyMembers(ps, u)| <= NLevels(ps)
  {
    MembersWithinGroup(ps.points, u);
    if u !in Keys(ps) {
      assert u !in Uids(ps.points);
    }
  }

  /** One variable's values over the selected points, in index order. */
  function Measured(members: seq<Point>, k: nat): (r: seq<Cell>)
    requires forall p :: p in members ==> k < |p.cells|
    ensures |r| == |members|
  {
    seq(|members|, j requires 0 <= j < |members| => members[j].cells[k])
  }

  /** Variable `v` (the `k`-th) of one profile. A coordinate along `index`
      becomes a per-profile array that stays at its fill value. A data
      variable becomes a row of `nLevels` cells: the measurements first,
      then padding, which for a header variable is the value the whole row
      was set to before the measurements were written. */
  function BuildColumn(v: Var, k: nat, members: seq<Point>, nLevels: nat): (c: Column)
    requires |members| <= nLevels
    requires forall p :: p in members ==> k < |p.cells|
    requires IsHeader(v) ==> |members| > 0
    ensures c.PerLevel? ==> |c.levels| == nLevels
  {
    if v.isCoord then PerProfile(Fill(v.kind))
    else
      var measured := Measured(members, k);
      var pad := if IsHeader(v) then FirstSorted(measured) else Fill(v.kind);
      PerLevel(measured + seq(nLevels - |members|, _ => pad))
  }

  function BuildProfile(ps: PointSet, u: int, nLevels: nat): (p: Profile)
    requires WellFormed(ps)
    requires |KeyMembers(ps, u)| <= nLevels
    requires NeedsHeader(ps.vars) ==> |KeyMembers(ps, u)| > 0
    ensures |p.columns| == |ps.vars|
    ensures forall k :: 0 <= k < |ps.vars| && p.columns[k].PerLevel? ==> |p.columns[k].levels| == nLevels
  {
    var m := KeyMembers(ps, u);
    Profile(Decode(u).0, Decode(u).1,
      seq(|ps.vars|, k requires 0 <= k < |ps.vars| => BuildColumn(ps.vars[k], k, m, nLevels)))
  }

  predicate SomeKeyUnmatched(ps: PointSet)
  {
    exists i | 0 <= i < |Keys(ps)| :: |KeyMembers(ps, Keys(ps)[i])| == 0
  }

  /** Every key's profile can be built: its points fit in `N_LEVELS`, and it
      has one when a per-profile value is needed. */
  lemma KeyBuildable(ps: PointSet, i: nat)
    requires NeedsHeader(ps.vars) ==> !SomeKeyUnmatched(ps)
    requires i < |Keys(ps)|
    ensures |KeyMembers(ps, Keys(ps)[i])| <= NLevels(ps)
    ensures NeedsHeader(ps.vars) ==> |KeyMembers(ps, Keys(ps)[i])| > 0
  {
    MembersFit(ps, Keys(ps)[i]);
  }

  /** The profiles in key order; defined when every key matches a point or
      no variable needs a per-profile value. */
  function BuildProfiles(ps: PointSet): (r: seq<Profile>)
    requires WellFormed(ps)
    requires NeedsHeader(ps.vars) ==> !SomeKeyUnmatched(ps)
    ensures |r| == |Keys(ps)|
    ensures ProfileWellFormed(ProfileSet(ps.vars, NLevels(ps), r))
  {
    var keys := Keys(ps);
    var nLevels := NLevels(ps);
    seq(|keys|, i requires 0 <= i < |keys| =>
      KeyBuildable(ps, i);
      BuildProfile(ps, keys[i], nLevels))
  }

  /** `point2profile` on a point dataset. */
  function Point2Profile(ps: PointSet): (r: Result<ProfileSet>)
    requires WellFormed(ps)
    ensures |ps.points| == 0 ==> r == Failure(EmptyDataset)
    ensures r.Failure? <==> |ps.points| == 0 || (NeedsHeader(ps.vars) && SomeKeyUnmatched(ps))
    ensures r.Success? ==>
      && ProfileWellFormed(r.value)
      && r.value.vars == ps.vars
      && |r.value.profiles| == |Keys(ps)|
      && r.value.nLevels == NLevels(ps)
      && r.value.nLevels >= 1
      && |r.value.profiles| * r.value.nLevels >= |ps.points|
  {
    if |ps.points| == 0 then Failure(EmptyDataset)
    else if NeedsHeader(ps.vars) && SomeKeyUnmatched(ps) then Failure(EmptySelection)
    else
      var keys := Keys(ps);
      var nLevels := NLevels(ps);
      var uids := Uids(ps.points);
      assert uids[0] in keys;
      GridHoldsColumn(uids);
      Success(ProfileSet(ps.vars, nLevels, BuildProfiles(ps)))
  }
}

/** What `point2profile` promises about the grid it builds. */
module ReshapeProperties {
  import opened Errors
  import opened Cells
  import opened Uid
  import opened Grouping
  import opened Points
  import opened Reshape

  predicate AllInRange(ps: PointSet)
  {
    forall p :: p in ps.points ==> InRange(p.wmo, p.cyc)
  }

  /** The keys are the uids of the points. */
  lemma KeysAreUids(ps: PointSet)
    ensures forall u :: u in Keys(ps) <==> exists p :: p in ps.points && UidOf(p) == u
  {
    var uids := Uids(ps.points);
    forall u
      ensures u in uids <==> exists p :: p in ps.points && UidOf(p) == u
    {
      if u in uids {
        var i :| 0 <= i < |uids| && uids[i] == u;
        assert ps.points[i] in ps.points;
      }
      if exists p :: p in ps.points && UidOf(p) == u {
        var p :| p in ps.points && UidOf(p) == u;
        var i :| 0 <= i < |ps.points| && ps.points[i] == p;
        assert uids[i] == u;
      }
    }
  }

  /** No point's group is larger than `N_LEVELS`, and on a non-empty dataset
      some point's group has exactly that size. */
  lemma LargestGroup(ps: PointSet)
    ensures forall p :: p in ps.points ==> Count(Uids(ps.points), UidOf(p)) <= NLevels(ps)
    ensures |ps.points| > 0 ==> exists p :: p in ps.points && Count(Uids(ps.points), UidOf(p)) == NLevels(ps)
  {
    var uids := Uids(ps.points);
    forall p | p in ps.points
      ensures Count(uids, UidOf(p)) <= NLevels(ps)
    {
      var i :| 0 <= i < |ps.points| && ps.points[i] == p;
      assert uids[i] in Keys(ps);
    }
    if |ps.points| > 0 {
      assert uids[0] in Keys(ps);
      var u :| u in Keys(ps) && Count(uids, u) == NLevels(ps);
      var i :| 0 <= i < |uids| && uids[i] == u;
      assert ps.points[i] in ps.points;
    }
  }

  /** `N_PROF` is the number of distinct uids and `N_LEVELS` the size of the
      largest group of points sharing one uid; row `i` carries the float id
      and cycle decoded from the `i`-th uid in ascending order. */
  lemma GridShape(ps: PointSet)
    requires WellFormed(ps)
    requires Point2Profile(ps).Success?
    ensures var pf := Point2Profile(ps).value;
      && (forall i, j :: 0 <= i < j < |pf.profiles| ==> Keys(ps)[i] < Keys(ps)[j])
      && (forall u :: u in Keys(ps) <==> exists p :: p in ps.points && UidOf(p) == u)
      && |pf.profiles| == |Keys(ps)|
      && (forall i :: 0 <= i < |pf.profiles| ==>
            (pf.profiles[i].wmo, pf.profiles[i].cyc) == Decode(Keys(ps)[i]))
      && (forall p :: p in ps.points ==> Count(Uids(ps.points), UidOf(p)) <= pf.nLevels)
      && (exists p :: p in ps.points && Count(Uids(ps.points), UidOf(p)) == pf.nLevels)
  {
    KeysAreUids(ps);
    LargestGroup(ps);
    var pf := Point2Profile(ps).value;
    forall i | 0 <= i < |pf.profiles|
      ensures (pf.profiles[i].wmo, pf.profiles[i].cyc) == Decode(Keys(ps)[i])
    {
      ProfileAt(ps, i);
    }
  }

  /** When every point is within the codec's range, every key selects at
      least one point, so `point2profile` fails only on an empty dataset. */
  lemma InRangeSucceeds(ps: PointSet)
    requires WellFormed(ps) && AllInRange(ps)
    ensures Point2Profile(ps).Success? <==> |ps.points| > 0
  {
    forall i | 0 <= i < |Keys(ps)|
      ensures |KeyMembers(ps, Keys(ps)[i])| > 0
    {
      var u := Keys(ps)[i];
      assert u in Uids(ps.points);
      var n :| 0 <= n < |ps.points| && Uids(ps.points)[n] == u;
      var p := ps.points[n];
      DecodeEncode(p.wmo, p.cyc);
      assert p in KeyMembers(ps, u);
    }
  }

  /** Within the codec's range, every key decodes to the float id and cycle
      of a point. */
  lemma KeyInRange(ps: PointSet, i: nat)
    requires AllInRange(ps) && i < |Keys(ps)|
    ensures InRange(Decode(Keys(ps)[i]).0, Decode(Keys(ps)[i]).1)
    ensures Encode(Decode(Keys(ps)[i]).0, Decode(Keys(ps)[i]).1) == Keys(ps)[i]
  {
    var uids := Uids(ps.points);
    assert Keys(ps)[i] in uids;
    var n :| 0 <= n < |uids| && uids[n] == Keys(ps)[i];
    assert ps.points[n] in ps.points;
    DecodeEncode(ps.points[n].wmo, ps.points[n].cyc);
  }

  /** Profiles come in ascending (float id, cycle) order, one per float cycle
      present in the points. */
  lemma ProfileOrder(ps: PointSet)
    requires WellFormed(ps) && AllInRange(ps) && |ps.points| > 0
    ensures Point2Profile(ps).Success?
    ensures var pf := Point2Profile(ps).value;
      && (forall i, j :: 0 <= i < j < |pf.profiles| ==>
            pf.profiles[i].wmo < pf.profiles[j].wmo
            || (pf.profiles[i].wmo == pf.profiles[j].wmo && pf.profiles[i].cyc < pf.profiles[j].cyc))
      && (forall p :: p in ps.points ==>
            exists i :: 0 <= i < |pf.profiles| && pf.profiles[i].wmo == p.wmo && pf.profiles[i].cyc == p.cyc)
  {
    InRangeSucceeds(ps);
    var pf := Point2Profile(ps).value;
    var keys := Keys(ps);
    var uids := Uids(ps.points);
    forall i | 0 <= i < |keys|
      ensures InRange(pf.profiles[i].wmo, pf.profiles[i].cyc)
      ensures Encode(pf.profiles[i].wmo, pf.profiles[i].cyc) == keys[i]
    {
      KeyInRange(ps, i);
    }
    forall i, j | 0 <= i < j < |pf.profiles|
      ensures pf.profiles[i].wmo < pf.profiles[j].wmo
            || (pf.profiles[i].wmo == pf.profiles[j].wmo && pf.profiles[i].cyc < pf.profiles[j].cyc)
    {
      EncodeOrder(pf.profiles[i].wmo, pf.profiles[i].cyc, pf.profiles[j].wmo, pf.profiles[j].cyc);
    }
    forall p | p in ps.points
      ensures exists i :: 0 <= i < |pf.profiles| && pf.profiles[i].wmo == p.wmo && pf.profiles[i].cyc == p.cyc
    {
      var n :| 0 <= n < |ps.points| && ps.points[n] == p;
      assert uids[n] in keys;
      var i :| 0 <= i < |keys| && keys[i] == uids[n];
      DecodeEncode(p.wmo, p.cyc);
      assert pf.profiles[i].wmo == p.wmo && pf.profiles[i].cyc == p.cyc;
    }
  }

  /** Row `i` of a successful reshape is the profile of the `i`-th key. */
  lemma ProfileAt(ps: PointSet, i: nat)
    requires WellFormed(ps)
    requires Point2Profile(ps).Success?
    requires i < |Point2Profile(ps).value.profiles|
    ensures |Point2Profile(ps).value.profiles| == |Keys(ps)|
    ensures Point2Profile(ps).value.nLevels == NLevels(ps)
    ensures |KeyMembers(ps, Keys(ps)[i])| <= NLevels(ps)
    ensures NeedsHeader(ps.vars) ==> |KeyMembers(ps, Keys(ps)[i])| > 0
    ensures Point2Profile(ps).value.profiles[i] == BuildProfile(ps, Keys(ps)[i], NLevels(ps))
  {
    MembersFit(ps, Keys(ps)[i]);
  }

  /** One variable of one profile, position by position. */
  lemma ColumnContents(v: Var, k: nat, m: seq<Point>, nLevels: nat)
    requires |m| <= nLevels
    requires forall p :: p in m ==> k < |p.cells|
    requires IsHeader(v) ==> |m| > 0
    ensures var c := BuildColumn(v, k, m, nLevels);
      && (v.isCoord ==> c == PerProfile(Fill(v.kind)))
      && (!v.isCoord ==>
            && c.PerLevel?
            && (forall j :: 0 <= j < |m| ==> c.levels[j] == m[j].cells[k])
            && (!IsHeader(v) ==> forall j :: |m| <= j < nLevels ==> c.levels[j] == Fill(v.kind))
            && (IsHeader(v) ==> forall j :: |m| <= j < nLevels ==> c.levels[j] == FirstSorted(Measured(m, k))))
  {
  }

  /** The contents of row `i`, variable `k`: with `m` the points whose float
      id and cycle are the profile's, in index order, a data variable holds
      the `m` measurements in its first `|m|` cells and padding after them:
      the fill value of its kind, except for a header variable, whose
      padding is the least of the profile's values of it. A coordinate
      holds its fill value. */
  lemma RowContents(ps: PointSet, i: nat, k: nat)
    requires WellFormed(ps)
    requires Point2Profile(ps).Success?
    requires i < |Point2Profile(ps).value.profiles| && k < |ps.vars|
    ensures var pf := Point2Profile(ps).value;
      var pr := pf.profiles[i];
      var v := ps.vars[k];
      var m := Members(ps.points, pr.wmo, pr.cyc);
      && |m| <= pf.nLevels
      && (v.isCoord ==> pr.columns[k] == PerProfile(Fill(v.kind)))
      && (!v.isCoord ==>
            && pr.columns[k].PerLevel?
            && (forall j :: 0 <= j < |m| ==> pr.columns[k].levels[j] == m[j].cells[k])
            && (!IsHeader(v) ==>
                  forall j :: |m| <= j < pf.nLevels ==> pr.columns[k].levels[j] == Fill(v.kind))
            && (IsHeader(v) ==>
                  && |m| > 0
                  && forall j :: |m| <= j < pf.nLevels ==>
                       && pr.columns[k].levels[j] in Measured(m, k)
                       && forall x :: x in Measured(m, k) ==> Le(pr.columns[k].levels[j], x)))
  {
    var pf := Point2Profile(ps).value;
    var u := Keys(ps)[i];
    var m := KeyMembers(ps, u);
    MembersFit(ps, u);
    var v := ps.vars[k];
    if IsHeader(v) {
      assert NeedsHeader(ps.vars);
    }
    assert pf.profiles[i] == BuildProfile(ps, u, NLevels(ps));
    assert pf.profiles[i].columns[k] == BuildColumn(v, k, m, NLevels(ps));
    ColumnContents(v, k, m, NLevels(ps));
  }

  /** Within the codec's range no point is lost: a point that is the `j`-th
      of its float cycle's points, in index order, has all its data
      variables at level `j` of that float cycle's row. */
  lemma PointPlaced(ps: PointSet, n: nat)
    requires WellFormed(ps) && AllInRange(ps) && n < |ps.points|
    ensures Point2Profile(ps).Success?
    ensures var pf := Point2Profile(ps).value;
      var p := ps.points[n];
      var m := Members(ps.points, p.wmo, p.cyc);
      exists i, j :: 0 <= i < |pf.profiles| && 0 <= j < |m| && m[j] == p
        && pf.profiles[i].wmo == p.wmo && pf.profiles[i].cyc == p.cyc
        && j < pf.nLevels
        && forall k :: 0 <= k < |ps.vars| && !ps.vars[k].isCoord ==>
             && pf.profiles[i].columns[k].PerLevel?
             && pf.profiles[i].columns[k].levels[j] == p.cells[k]
  {
    var i := RowOf(ps, n);
    var p := ps.points[n];
    var m := Members(ps.points, p.wmo, p.cyc);
    assert p in m;
    var j :| 0 <= j < |m| && m[j] == p;
    PlacedAt(ps, i, j, m);
  }

  /** Within the codec's range, the row of a point's float cycle. */
  lemma RowOf(ps: PointSet, n: nat) returns (i: nat)
    requires WellFormed(ps) && AllInRange(ps) && n < |ps.points|
    ensures Point2Profile(ps).Success?
    ensures i < |Point2Profile(ps).value.profiles|
    ensures Point2Profile(ps).value.profiles[i].wmo == ps.points[n].wmo
    ensures Point2Profile(ps).value.profiles[i].cyc == ps.points[n].cyc
  {
    InRangeSucceeds(ps);
    var p := ps.points[n];
    assert Uids(ps.points)[n] in Keys(ps);
    i :| 0 <= i < |Keys(ps)| && Keys(ps)[i] == UidOf(p);
    ProfileAt(ps, i);
    DecodeEncode(p.wmo, p.cyc);
  }

  /** The `j`-th point of row `i`'s float cycle sits at level `j`. */
  lemma PlacedAt(ps: PointSet, i: nat, j: nat, m: seq<Point>)
    requires WellFormed(ps) && Point2Profile(ps).Success?
    requires i < |Point2Profile(ps).value.profiles|
    requires m == Members(ps.points, Point2Profile(ps).value.profiles[i].wmo, Point2Profile(ps).value.profiles[i].cyc)
    requires j < |m|
    ensures j < Point2Profile(ps).value.nLevels
    ensures forall k :: 0 <= k < |ps.vars| && !ps.vars[k].isCoord ==>
      && Point2Profile(ps).value.profiles[i].columns[k].PerLevel?
      && Point2Profile(ps).value.profiles[i].columns[k].levels[j] == m[j].cells[k]
  {
    if |ps.vars| > 0 {
      RowContents(ps, i, 0);
    } else {
      ProfileAt(ps, i);
      MembersFit(ps, Keys(ps)[i]);
    }
    forall k | 0 <= k < |ps.vars| && !ps.vars[k].isCoord
      ensures Point2Profile(ps).value.profiles[i].columns[k].PerLevel?
      ensures Point2Profile(ps).value.profiles[i].columns[k].levels[j] == m[j].cells[k]
    {
      RowContents(ps, i, k);
    }
  }

  /** Outside the codec's range a point can be lost: cycle 10000 of float 1
      shares the uid of cycle 0 of float 2, which it decodes to, so the one
      row holds only the latter point's value, then padding. */
  lemma OverflowLosesPoint()
    ensures var ps := OverflowPoints();
      && Point2Profile(ps).Success?
      && Point2Profile(ps).value.profiles == [Profile(2, 0, [PerLevel([Num(8.0), NaN])])]
  {
    var ps := OverflowPoints();
    OverflowKeys();
    var m := KeyMembers(ps, 20000);
    assert !NeedsHeader(ps.vars);
    var pf := Point2Profile(ps).value;
    assert pf.profiles == BuildProfiles(ps);
    assert |pf.profiles| == 1;
    assert pf.profiles[0] == BuildProfile(ps, 20000, 2);
    var col := BuildColumn(ps.vars[0], 0, m, 2);
    OverflowColumn(col);
    assert pf.profiles[0].columns == [col];
  }

  /** Float 1's cycle 10000, measured 7.0, and float 2's cycle 0, measured
      8.0. */
  function OverflowPoints(): (ps: PointSet)
    ensures WellFormed(ps)
  {
    PointSet([Var("TEMP", OtherKind, false)], [Point(0, 1, 10000, [Num(7.0)]), Point(1, 2, 0, [Num(8.0)])])
  }

  lemma OverflowKeys()
    ensures Keys(OverflowPoints()) == [20000]
    ensures NLevels(OverflowPoints()) == 2
    ensures Decode(20000) == (2, 0)
    ensures KeyMembers(OverflowPoints(), 20000) == [OverflowPoints().points[1]]
  {
    var ps := OverflowPoints();
    assert Uids(ps.points) == [20000, 20000];
    IncreasingDeterminedByElements(Keys(ps), [20000]);
  }

  lemma OverflowColumn(col: Column)
    requires col == BuildColumn(Var("TEMP", OtherKind, false), 0, [Point(1, 2, 0, [Num(8.0)])], 2)
    ensures col == PerLevel([Num(8.0), NaN])
  {
    assert Measured([Point(1, 2, 0, [Num(8.0)])], 0) == [Num(8.0)];
  }
}

=== FILE: roundtrip.dfy ===
/** `point2profile` followed by `profile2point` gives back the original
    points when nothing had to be padded. */
module RoundTrip {
  import opened Cells
  import opened Uid
  import opened Grouping
  import opened Points
  import opened Reshape
  import opened ReshapeProperties
  import opened Flatten

  /** The points are sorted by uid and every profile has exactly `nLevels`
      points: block `i` of `nLevels` consecutive points carries `keys[i]`. */
  predicate SortedWithoutPadding(ps: PointSet, keys: seq<int>, nLevels: nat)
  {
    && nLevels > 0
    && |ps.points| == |keys| * nLevels
    && StrictlyIncreasing(keys)
    && forall k :: 0 <= k < |ps.points| ==> k / nLevels < |keys| && UidOf(ps.points[k]) == keys[k / nLevels]
  }

  /** The `index` coordinate already reads `0, 1, 2, ...`. */
  predicate Numbered(ps: PointSet)
  {
    forall k :: 0 <= k < |ps.points| ==> ps.points[k].index == k
  }

  predicate NoCoordinates(ps: PointSet)
  {
    forall v :: v in ps.vars ==> !v.isCoord
  }

  lemma {:induction false} CountRange(s: seq<int>, x: int, a: nat, b: nat)
    requires a <= b <= |s|
    requires forall n :: 0 <= n < |s| ==> (s[n] == x <==> a <= n < b)
    ensures Count(s, x) == b - a
    decreases |s|
  {
    if |s| > 0 {
      var a' := if a == 0 then 0 else a - 1;
      var b' := if b == 0 then 0 else b - 1;
      assert forall n :: 0 <= n < |s| - 1 ==> s[1..][n] == s[n + 1];
      CountRange(s[1..], x, a', b');
    }
  }

  /** `Members` unfolded once. */
  lemma MembersCons(pts: seq<Point>, w: int, c: int)
    requires |pts| > 0
    ensures Members(pts, w, c) ==
      (if pts[0].wmo == w && pts[0].cyc == c then [pts[0]] else []) + Members(pts[1..], w, c)
  {
  }

  /** Dropping the first point shifts a matching range down by one. */
  lemma ShiftRange(pts: seq<Point>, w: int, c: int, a: nat, b: nat, a': nat, b': nat)
    requires a <= b <= |pts| && |pts| > 0
    requires a' == (if a == 0 then 0 else a - 1) && b' == (if b == 0 then 0 else b - 1)
    requires forall n :: 0 <= n < |pts| ==> (pts[n].wmo == w && pts[n].cyc == c <==> a <= n < b)
    ensures a' <= b' <= |pts| - 1
    ensures forall n :: 0 <= n < |pts[1..]| ==> (pts[1..][n].wmo == w && pts[1..][n].cyc == c <==> a' <= n < b')
  {
    forall n | 0 <= n < |pts[1..]|
      ensures pts[1..][n].wmo == w && pts[1..][n].cyc == c <==> a' <= n < b'
    {
      assert pts[1..][n] == pts[n + 1];
    }
  }

  /** Prepending the head (when it is in range) to the selection of the
      tail gives the selection of the whole range. */
  lemma ConsRange(pts: seq<Point>, rest: seq<Point>, m: seq<Point>, hit: bool, a: nat, b: nat, a': nat, b': nat)
    requires a <= b <= |pts| && |pts| > 0
    requires a' == (if a == 0 then 0 else a - 1) && b' == (if b == 0 then 0 else b - 1)
    requires hit <==> a == 0 < b
    requires |rest| == b' - a'
    requires forall j :: 0 <= j < b' - a' ==> rest[j] == pts[1..][a' + j]
    requires m == (if hit then [pts[0]] else []) + rest
    ensures |m| == b - a
    ensures forall j :: 0 <= j < b - a ==> m[j] == pts[a + j]
  {
  }

  lemma {:induction false} MembersRange(pts: seq<Point>, w: int, c: int, a: nat, b: nat)
    requires a <= b <= |pts|
    requires forall n :: 0 <= n < |pts| ==> (pts[n].wmo == w && pts[n].cyc == c <==> a <= n < b)
    ensures |Members(pts, w, c)| == b - a
    ensures forall j :: 0 <= j < b - a ==> Members(pts, w, c)[j] == pts[a + j]
    decreases |pts|
  {
    if |pts| > 0 {
      var a' := if a == 0 then 0 else a - 1;
      var b' := if b == 0 then 0 else b - 1;
      ShiftRange(pts, w, c, a, b, a', b');
      MembersRange(pts[1..], w, c, a', b');
      MembersCons(pts, w, c);
      ConsRange(pts, Members(pts[1..], w, c), Members(pts, w, c), pts[0].wmo == w && pts[0].cyc == c, a, b, a', b');
    }
  }

  /** Point `n` lies in block `i` exactly when `n / nLevels == i`. */
  lemma InBlock(n: nat, i: nat, nLevels: nat)
    requires nLevels > 0
    ensures n / nLevels == i <==> i * nLevels <= n < i * nLevels + nLevels
  {
    if i * nLevels <= n < i * nLevels + nLevels {
      DivModOf(i, n - i * nLevels, nLevels);
    }
    var q := n / nLevels;
    assert q * nLevels <= n < q * nLevels + nLevels;
  }

  /** Block `n / nLevels` carries key `keys[i]` exactly when `n` lies in block `i`. */
  lemma BlockKey(keys: seq<int>, nLevels: nat, n: nat, i: nat)
    requires nLevels > 0 && StrictlyIncreasing(keys)
    requires n / nLevels < |keys| && i < |keys|
    ensures keys[n / nLevels] == keys[i] <==> i * nLevels <= n < i * nLevels + nLevels
  {
    InBlock(n, i, nLevels);
    var q := n / nLevels;
    if q < i {
      assert keys[q] < keys[i];
    } else if i < q {
      assert keys[i] < keys[q];
    }
  }

  /** Within the codec's range, a point belongs to a key's profile exactly
      when its uid is that key. */
  lemma MatchIsUid(p: Point, u: int)
    requires InRange(p.wmo, p.cyc)
    ensures p.wmo == Decode(u).0 && p.cyc == Decode(u).1 <==> UidOf(p) == u
  {
    DecodeEncode(p.wmo, p.cyc);
  }

  /** The points of block `i`, which starts at point `base`, are exactly
      those whose uid is `keys[i]`, and, within the codec's range, exactly
      those the profile of `keys[i]` selects. */
  lemma BlockMatches(ps: PointSet, keys: seq<int>, nLevels: nat, i: nat, base: nat)
    requires AllInRange(ps) && SortedWithoutPadding(ps, keys, nLevels)
    requires i < |keys| && base == i * nLevels
    ensures base + nLevels <= |ps.points|
    ensures forall n :: 0 <= n < |ps.points| ==>
      && (UidOf(ps.points[n]) == keys[i] <==> base <= n < base + nLevels)
      && ((ps.points[n].wmo == Decode(keys[i]).0 && ps.points[n].cyc == Decode(keys[i]).1)
          <==> base <= n < base + nLevels)
  {
    IndexBelow(i, nLevels - 1, nLevels, |keys|);
    forall n | 0 <= n < |ps.points|
      ensures UidOf(ps.points[n]) == keys[i] <==> base <= n < base + nLevels
      ensures (ps.points[n].wmo == Decode(keys[i]).0 && ps.points[n].cyc == Decode(keys[i]).1)
        <==> base <= n < base + nLevels
    {
      BlockKey(keys, nLevels, n, i);
      assert UidOf(ps.points[n]) == keys[n / nLevels];
      assert ps.points[n] in ps.points;
      MatchIsUid(ps.points[n], keys[i]);
    }
  }

  /** A selection that matches exactly the points `base .. base + len - 1`
      lists them in order. */
  lemma SelectsRange(pts: seq<Point>, w: int, c: int, base: nat, len: nat)
    requires base + len <= |pts|
    requires forall n :: 0 <= n < |pts| ==> (pts[n].wmo == w && pts[n].cyc == c <==> base <= n < base + len)
    ensures |Members(pts, w, c)| == len
    ensures forall j :: 0 <= j < len ==> Members(pts, w, c)[j] == pts[base + j]
  {
    MembersRange(pts, w, c, base, base + len);
  }

  /** The profile of `keys[i]` selects exactly block `i`, which starts at
      point `base`. */
  lemma KeyBlockMembers(ps: PointSet, keys: seq<int>, nLevels: nat, i: nat, base: nat)
    requires AllInRange(ps) && SortedWithoutPadding(ps, keys, nLevels)
    requires i < |keys| && base == i * nLevels
    ensures base + nLevels <= |ps.points|
    ensures |KeyMembers(ps, keys[i])| == nLevels
    ensures forall j :: 0 <= j < nLevels ==> KeyMembers(ps, keys[i])[j] == ps.points[base + j]
  {
    BlockMatches(ps, keys, nLevels, i, base);
    SelectsRange(ps.points, Decode(keys[i]).0, Decode(keys[i]).1, base, nLevels);
  }

  /** The group of `keys[i]` has `nLevels` points. */
  lemma KeyBlockCount(ps: PointSet, keys: seq<int>, nLevels: nat, i: nat)
    requires AllInRange(ps) && SortedWithoutPadding(ps, keys, nLevels)
    requires i < |keys|
    ensures Count(Uids(ps.points), keys[i]) == nLevels
  {
    var base := i * nLevels;
    BlockMatches(ps, keys, nLevels, i, base);
    CountRange(Uids(ps.points), keys[i], base, base + nLevels);
  }

  lemma UidInKeys(ps: PointSet, keys: seq<int>, nLevels: nat, n: nat)
    requires SortedWithoutPadding(ps, keys, nLevels)
    requires n < |ps.points|
    ensures Uids(ps.points)[n] in keys
  {
    var q := n / nLevels;
    assert q < |keys| && UidOf(ps.points[n]) == keys[q];
    assert Uids(ps.points)[n] == keys[q];
  }

  lemma KeysOfBlocks(ps: PointSet, keys: seq<int>, nLevels: nat)
    requires AllInRange(ps) && SortedWithoutPadding(ps, keys, nLevels)
    ensures Keys(ps) == keys
  {
    var uids := Uids(ps.points);
    forall y
      ensures y in uids <==> y in keys
    {
      if y in uids {
        var n :| 0 <= n < |uids| && uids[n] == y;
        UidInKeys(ps, keys, nLevels, n);
      }
      if y in keys {
        var i :| 0 <= i < |keys| && keys[i] == y;
        KeyBlockCount(ps, keys, nLevels, i);
      }
    }
    IncreasingDeterminedByElements(Unique(uids), keys);
  }

  /** Under the round-trip conditions the grid has one row per key and
      `nLevels` levels. */
  lemma GridOfBlocks(ps: PointSet, keys: seq<int>, nLevels: nat)
    requires WellFormed(ps) && AllInRange(ps) && SortedWithoutPadding(ps, keys, nLevels)
    requires |ps.points| > 0
    ensures Keys(ps) == keys
    ensures NLevels(ps) == nLevels
    ensures Point2Profile(ps).Success?
  {
    KeysOfBlocks(ps, keys, nLevels);
    var uids := Uids(ps.points);
    forall i | 0 <= i < |keys|
      ensures Count(uids, keys[i]) == nLevels
    {
      KeyBlockCount(ps, keys, nLevels, i);
    }
    var u :| u in keys && Count(uids, u) == NLevels(ps);
    InRangeSucceeds(ps);
  }

  /** Level `j` of the profile of key `u` holds the variables of point `k`
      when `k` is the `j`-th point the profile selects. */
  lemma CellOfBlock(ps: PointSet, u: int, nLevels: nat, k: nat, j: nat, v: nat)
    requires WellFormed(ps) && NoCoordinates(ps)
    requires j < nLevels && k < |ps.points| && v < |ps.vars|
    requires |KeyMembers(ps, u)| == nLevels && KeyMembers(ps, u)[j] == ps.points[k]
    ensures var pr := BuildProfile(ps, u, nLevels);
      && pr.columns[v].PerLevel?
      && |pr.columns[v].levels| == nLevels
      && pr.columns[v].levels[j] == ps.points[k].cells[v]
  {
    var m := KeyMembers(ps, u);
    assert ps.vars[v] in ps.vars;
    assert forall p :: p in m ==> p in ps.points;
    ColumnContents(ps.vars[v], v, m, nLevels);
  }

  /** Point `k` is the `j`-th point of block `i`, where `i` and `j` are
      the quotient and remainder of `k` by `nLevels`. */
  lemma BlockOfPoint(ps: PointSet, keys: seq<int>, nLevels: nat, k: nat, i: int, j: int)
    requires AllInRange(ps) && SortedWithoutPadding(ps, keys, nLevels)
    requires k < |ps.points| && i == k / nLevels && j == k % nLevels
    ensures 0 <= i < |keys| && 0 <= j < nLevels
    ensures |KeyMembers(ps, keys[i])| == nLevels
    ensures KeyMembers(ps, keys[i])[j] == ps.points[k]
    ensures InRange(ps.points[k].wmo, ps.points[k].cyc) && UidOf(ps.points[k]) == keys[i]
  {
    assert ps.points[k] in ps.points;
    KeyBlockMembers(ps, keys, nLevels, i, k - j);
  }

  /** Stacked point `k`, level `j` of row `i`, of the rebuilt grid is the
      original point `k` when that point is the `j`-th the row selects and
      every row selects `N_LEVELS` points. */
  lemma StackedIsOriginal(ps: PointSet, k: nat, i: nat, j: nat)
    requires WellFormed(ps) && Numbered(ps) && NoCoordinates(ps)
    requires Point2Profile(ps).Success?
    requires k < |ps.points| && i < |Keys(ps)| && j < NLevels(ps)
    requires k / NLevels(ps) == i && k % NLevels(ps) == j
    requires |KeyMembers(ps, Keys(ps)[i])| == NLevels(ps)
    requires KeyMembers(ps, Keys(ps)[i])[j] == ps.points[k]
    requires InRange(ps.points[k].wmo, ps.points[k].cyc) && UidOf(ps.points[k]) == Keys(ps)[i]
    ensures ProfileWellFormed(Point2Profile(ps).value)
    ensures k < |Point2Profile(ps).value.profiles| * Point2Profile(ps).value.nLevels
    ensures StackedPoint(Point2Profile(ps).value, ProfileMajor, k) == ps.points[k]
  {
    var pf := Point2Profile(ps).value;
    var u := Keys(ps)[i];
    ProfileAt(ps, i);
    var p := ps.points[k];
    MatchIsUid(p, u);
    var q := StackedPoint(pf, ProfileMajor, k);
    forall v | 0 <= v < |ps.vars|
      ensures q.cells[v] == p.cells[v]
    {
      CellOfBlock(ps, u, NLevels(ps), k, j, v);
    }
  }

  /** Point `k` comes back from the stacked grid unchanged, given the
      grid's keys and level count and where `k` sits in its block. */
  lemma RebuiltPoint(ps: PointSet, keys: seq<int>, nLevels: nat, k: nat, i: int, j: int)
    requires WellFormed(ps) && Numbered(ps) && NoCoordinates(ps)
    requires Keys(ps) == keys && NLevels(ps) == nLevels && Point2Profile(ps).Success?
    requires k < |ps.points| && 0 <= i < |keys| && 0 <= j < nLevels
    requires k / nLevels == i && k % nLevels == j
    requires |KeyMembers(ps, keys[i])| == nLevels && KeyMembers(ps, keys[i])[j] == ps.points[k]
    requires InRange(ps.points[k].wmo, ps.points[k].cyc) && UidOf(ps.points[k]) == keys[i]
    ensures k < |Profile2Point(Point2Profile(ps).value, ProfileMajor).points|
    ensures Profile2Point(Point2Profile(ps).value, ProfileMajor).points[k] == ps.points[k]
  {
    StackedIsOriginal(ps, k, i, j);
    StackedAt(Point2Profile(ps).value, ProfileMajor, k);
  }

  /** The round trip of `point2profile` and `profile2point` returns the
      original points when they are numbered from 0, sorted by uid, all
      within the codec's range, and every profile has the same number of
      points, and when no variable along `index` is a coordinate. The header
      variables come back marked as coordinates. */
  lemma PointToProfileToPoint(ps: PointSet, keys: seq<int>, nLevels: nat)
    requires WellFormed(ps) && AllInRange(ps) && Numbered(ps) && NoCoordinates(ps)
    requires SortedWithoutPadding(ps, keys, nLevels)
    requires |ps.points| > 0
    ensures Point2Profile(ps).Success?
    ensures |Point2Profile(ps).value.profiles| == |keys|
    ensures Point2Profile(ps).value.nLevels == nLevels
    ensures Profile2Point(Point2Profile(ps).value, ProfileMajor) == PointSet(MarkCoords(ps.vars), ps.points)
  {
    GridOfBlocks(ps, keys, nLevels);
    var pf := Point2Profile(ps).value;
    var r := Profile2Point(pf, ProfileMajor);
    assert |r.points| == |ps.points|;
    forall k | 0 <= k < |ps.points|
      ensures r.points[k] == ps.points[k]
    {
      var i, j := k / nLevels, k % nLevels;
      BlockOfPoint(ps, keys, nLevels, k, i, j);
      RebuiltPoint(ps, keys, nLevels, k, i, j);
    }
  }
}

=== FILE: text.dfy ===
/** Python's substring test `sub in s`, which decides which variables the
    QC normalisation and the data-mode filter touch. */
module Text {

  /** The window of `s` starting at `i` spells `sub`. */
  predicate OccursAt(s: string, sub: string, i: int)
  {
    0 <= i && i + |sub| <= |s| && s[i..i + |sub|] == sub
  }

  /** `sub in s`: some window of `s` spells `sub`. */
  predicate Contains(s: string, sub: string)
  {
    exists i | 0 <= i <= |s| :: OccursAt(s, sub, i)
  }
}

=== FILE: uid.dfy ===
/** The profile identifier codec of `point2profile`: a float id (WMO) and a
    cycle number packed into one integer, `uid = 10000 * wmo + cyc`. The
    source computes in floating point and truncates with `int()`; here the
    arithmetic is exact and the truncation is written out. */
module Uid {

  const Base: int := 10000

  /** Integer division rounding toward zero, which is what `int()` does to
      the floating-point quotient `a / b`. */
  function TruncDiv(a: int, b: int): (q: int)
    requires b > 0
    ensures a >= 0 ==> 0 <= a - b * q < b
    ensures a < 0 ==> -b < a - b * q <= 0
  {
    if a >= 0 then a / b else -((-a) / b)
  }

  /** `uid(wmo, cyc)`: the encoding direction. */
  function Encode(wmo: int, cyc: int): int
  {
    Base * wmo + cyc
  }

  /** `uid(u)`: the decoding direction, `(int(u / 1e4), -int(1e4 * int(u / 1e4) - u))`. */
  function Decode(u: int): (r: (int, int))
    ensures Encode(r.0, r.1) == u
    ensures -Base < r.1 < Base
    ensures u >= 0 ==> r.0 >= 0 && r.1 >= 0
    ensures u <= 0 ==> r.0 <= 0 && r.1 <= 0
  {
    var wmo := TruncDiv(u, Base);
    (wmo, -(Base * wmo - u))
  }

  /** The range in which a (float id, cycle) pair survives the codec. */
  predicate InRange(wmo: int, cyc: int)
  {
    wmo >= 0 && 0 <= cyc < Base
  }

  lemma DecodeEncode(wmo: int, cyc: int)
    requires InRange(wmo, cyc)
    ensures Decode(Encode(wmo, cyc)) == (wmo, cyc)
  {
    var r := Decode(Encode(wmo, cyc));
    assert Base * (r.0 - wmo) == cyc - r.1;
  }

  /** Inside the range, distinct pairs get distinct uids. */
  lemma EncodeInjective(w1: int, c1: int, w2: int, c2: int)
    requires InRange(w1, c1) && InRange(w2, c2)
    ensures Encode(w1, c1) == Encode(w2, c2) <==> w1 == w2 && c1 == c2
  {
    if Encode(w1, c1) == Encode(w2, c2) {
      DecodeEncode(w1, c1);
      DecodeEncode(w2, c2);
    }
  }

  /** Inside the range, uid order is the lexicographic order of
      (float id, cycle), so ascending uids list profiles float by float and
      cycle by cycle. */
  lemma EncodeOrder(w1: int, c1: int, w2: int, c2: int)
    requires InRange(w1, c1) && InRange(w2, c2)
    ensures Encode(w1, c1) < Encode(w2, c2) <==> w1 < w2 || (w1 == w2 && c1 < c2)
  {
  }

  /** Outside the range the codec merges profiles: cycle 10000 of float 1 and
      cycle 0 of float 2 share one uid, which decodes to the latter. */
  lemma CycleOverflowCollides()
    ensures Encode(1, Base) == Encode(2, 0)
    ensures Decode(Encode(1, Base)) == (2, 0)
  {
    assert Decode(Encode(1, Base)).0 == 2;
  }
}
